=== FILE: README.md ===
# Transaction-log replay: a verified Dafny model

This project models the core of a command-line exporter for a receipts
database. The database is an append-only, per-client transaction log. The
exporter replays every client's frames, merges each change record into a store
of managed objects, and then exports the objects that have a type.

The model covers four parts:

- **Frame decoder** (`Frame`, src/utils.ts `transactionJsonlDecode`). It slices
  a frame into header and content, checks the size, then the checksum, and
  splits the content into one change per line.
- **Merge engine** (`Merge`, src/utils.ts `applyChange`). This is a
  hierarchical last-writer-wins merge. Nested records recurse, `null` is a
  tombstone, and field names ending with `$` are reserved for the history.
- **Asset URL resolver** (`AssetUrl`, src/utils.ts `parseAssetUrl`).
- **Replay driver** (`Replay`, the pure part of src/export.ts `commandExport`).
  It covers the extension choice, the client list, the per-client frame loop
  that stops at the first missing frame, the fold of changes into the store by
  `_id`, and the export filter.

Each module proves the lemmas about its own operations; the cross-cutting
laws live in `MergeLaws` and `ReplayLaws`.

Modelling choices:

- Bytes are `seq<bv8>` and strings are `seq<char>`.
- JSON values are the `Json` datatypes. `Value` is a stored value. `Patch` is a
  changed property as parsed from a line: a tombstone, a scalar, or a nested
  object whose entries are in `Object.entries` order.
- The source keeps one string-keyed history map. Nested histories sit under
  `key + '$'` in that map. The model splits it into two maps: `times[key]` for
  the source's `history[key]` and `subs[key]` for `history[key + '$']`. Field
  names ending with `$` are refused, so the two representations hold the same
  information.
- Some operations are left uninterpreted and passed in as functions:
  - `JSON.parse` of the header and of each line, and `toBase64Url(digest(·))`,
    are the fields of `Frame.Codec`. The source decodes the content to text
    once and then splits it. The model splits the bytes and hands each line's
    bytes to `Codec.line`, so it drops the one byte-order mark that
    `TextDecoder` removes, at the start of the content, before splitting
    (`Frame.Lines`); a mark at the start of a later line stays.
  - `toHumanReadableFilePath` and `distributedFilePath(+idx, ·)` are the
    fields of `AssetUrl.Naming`.
- The replay loops (`Replay.ReplayFrom`, `Replay.ReplayClients`,
  `Replay.ReplayClient`, `Replay.ReplayAll`) are stated for any step function
  from a store and a frame to a new store or an error. The exporter's step is
  `Replay.Stepper(codec)`: decode the frame, then absorb its changes.
- Files are not read. A client's frames arrive as a sequence whose entry `i` is
  the file at index `i`, and `None` marks a missing file. A thrown exception is
  modelled as a `Failure` with an `Errors.Error`.

Three behaviours of the code that a reader might not expect, modelled as the
code has them:

- **Equal-time writes.** On an equal-time leaf write, src/utils.ts:73 compares
  the incoming value with itself. The skip never fires, so the write applied
  last wins. `LeafWrite` keeps the comparison and proves it inert, and
  `MergeLaws.EqualTimeLastApplied` states the resulting policy. The merge is
  therefore not order-independent for equal times.
- **Asset references that are not strings.** The `try`/`catch` at
  src/export.ts:72-84 makes copy failures recoverable. But `parseAssetUrl`
  runs before it, at src/export.ts:71, so a truthy asset reference that is not
  a string throws and aborts the run. `Replay.AssetRefs` and `Replay.Plan` model that
  failure.
- **Frames without a line feed.** A frame with no line feed is not rejected by
  a delimiter check. `indexOf` returns -1, so the header loses the frame's last
  byte and the content is the whole frame (`Frame.NoLineFeed`).

## Model

| member | source | states |
|---|---|---|
| Merge.Seed | src/utils.ts:30-36 | a fresh managed object holds exactly `_id` and, when defined, `_type`, with an empty history |
| Merge.Reserved | src/utils.ts:41 | a name is reserved exactly when it is some name followed by '$' |
| Merge.InnerTime | src/utils.ts:59-65 | a nested call runs at the parent's time unless the nested object carries its own `_v` |
| Merge.InnerTimeLastVersion | src/utils.ts:59-65 | the last `_v` entry of a nested object wins: a number there is the nested time, anything else falls back to the parent's time |
| Merge.Keys | src/utils.ts:28-40 | the changed properties are exactly the names of the entries other than `_v`, `_id` and `_type` |
| Merge.LeafWrite | src/utils.ts:68-87 | a leaf write passes iff the key has no time or one `<=` the change time; it then stamps the time and deletes the key on null or sets the scalar; otherwise nothing changes (the equal-time skip never fires) |
| Merge.ApplyField | src/utils.ts:40-87 | one property: fails iff its name, or a nested name, ends with '$'; touches only `obj[k]`, `history[k]` and `history[k$]`; a record write always leaves a record and stamps `history[k]` only when resetting a non-record |
| Merge.ApplyFields | src/utils.ts:38-88 | the property loop succeeds iff no changed name at any depth ends with '$', whatever the state, and leaves every key outside the changed names untouched |
| Merge.ApplyChange | src/utils.ts:24-91 | seeding sets `_id`/`_type` from the change; afterwards no change can alter `_id` or `_type`; failure exactly on a reserved name |
| Json.Greater | src/utils.ts:73 | `>` holds only between two leaves of the same JSON type |
| Json.GreaterIrreflexive | src/utils.ts:71-75 | the tie-break `changedProperties[key] > value` compares a payload with itself and is never true |
| MergeLaws.ReservedSuffixFails | src/utils.ts:40-42 | any changed name ending with '$' makes the call fail, whatever the managed object |
| MergeLaws.LeafAcceptRule | src/utils.ts:69-86 | a scalar write is taken (time stamped and value stored) exactly when the prior time is absent or `<=` the change time |
| MergeLaws.NestedLeafRule | src/utils.ts:59-87 | a scalar written to name `x` of the record at `k` is taken (nested time stamped and value stored) exactly when the nested history of `k` has no time for `x` or one `<=` the change time; `k` stays a record with its nested history |
| MergeLaws.StaleWriteIgnored | src/utils.ts:69 | a write older than the recorded time is a silent no-op |
| MergeLaws.TombstoneRemoves | src/utils.ts:80-82 | an accepted null leaves the key absent, not null, and stamps its time |
| MergeLaws.EqualTimeLastApplied | src/utils.ts:71-75 | of two scalar writes at the same time the one applied last wins, whatever the values |
| MergeLaws.RecordWriteIgnoresTime | src/utils.ts:48-54 | a record write over a non-record yields a record and stamps the change time even over a later time |
| MergeLaws.RecordWriteKeepsHistory | src/utils.ts:48-57 | a record write into a record keeps `history[k]`, and an existing nested history is reused, not reset |
| MergeLaws.NestedIsolation | src/utils.ts:59-65 | a nested write leaves sibling top-level keys and unnamed nested keys unchanged |
| MergeLaws.DocExample | src/utils.ts:24-91 | two changes to "x" yield `{_id: "x", _type: "Doc", title: "World"}` with title stamped 2; the null for the never-written `body` leaves `body` absent and stamps its time 2 |
| MergeLaws.StaleNestedHistory | src/utils.ts:48-65 | because nested history survives a leaf overwrite, an old nested write after it leaves an empty record |
| MergeLaws.ApplyFieldLocal | src/utils.ts:40-87 | the outcome of one property's write depends only on that key's value, time and nested history |
| MergeLaws.ApplyFieldsAt | src/utils.ts:40-88 | with distinct changed names, the loop leaves at each name what that name's write alone would leave |
| MergeLaws.MultiProperty | src/utils.ts:24-91 | a change with several distinct properties acts on each property as a one-property change would |
| MergeLaws.NestedVersionOverrides | src/utils.ts:59-65 | a numeric `_v` inside a nested object stamps that object's properties |
| Frame.HeaderBytes | src/utils.ts:6-7 | the header slice holds no line feed |
| Frame.ContentBytes | src/utils.ts:8 | the content is a suffix of the frame |
| Frame.ParseLines | src/utils.ts:18 | all lines parse or the frame fails; on success one change per line, in line order |
| Frame.Decode | src/utils.ts:5-22 | header parse, then size check, then checksum check, in that order; an empty frame yields no changes; a non-empty one yields the parsed lines; `ts` is the header's `t` |
| Frame.DecodeLines | src/utils.ts:16-19 | a decoded non-empty frame holds (number of LF bytes in the content) + 1 changes, each the parse of its line; one bad line fails the frame |
| Frame.FrameSlicing | src/utils.ts:6-8 | the header is the bytes before the first LF and the content is everything after it |
| Frame.NoLineFeed | src/utils.ts:6-8 | without any LF the content is the whole frame and the header drops the last byte |
| Frame.DecodeEncode | src/utils.ts:5-22 | a frame declaring its content's size and checksum decodes to exactly the changes on its lines, the first line read without a leading byte-order mark |
| Frame.DropBom | src/utils.ts:17 | the decoder drops three bytes EF BB BF at the start and leaves any other bytes as they are |
| Frame.LinesJoin | src/utils.ts:17-18 | the lines of separator-free lines joined by LF are those lines, only the first without its byte-order mark |
| Frame.LaterLinesKeepBom | src/utils.ts:17-18 | after the first line feed nothing is removed: the later lines are the plain split of the rest |
| Frame.CountDropBom | src/utils.ts:17-18 | dropping the mark keeps the number of line feeds, so the line count is that of the raw content |
| Frame.EmptyFrame | src/utils.ts:16-21 | a frame with size 0 decodes to no changes with the header's time |
| Frame.TamperedContent | src/utils.ts:12-15 | content of the right length with a different checksum fails with a checksum mismatch |
| Frame.WrongLength | src/utils.ts:9-11 | content whose length differs from `s` fails with a size mismatch, before any checksum |
| Seqs.Split | src/utils.ts:18 | splitting yields (separator count + 1) parts, none containing a separator |
| Seqs.SplitJoin | src/utils.ts:18 | splitting separator-free lines joined by a separator gives back the lines |
| Seqs.JoinSplit | src/utils.ts:18 | joining the split parts with the separator gives back the content |
| Seqs.IndexOf | src/utils.ts:6 | `indexOf` returns -1 iff the byte is absent, else the first position holding it |
| AssetUrl.ParseAssetUrl | src/utils.ts:94-107 | nothing for an empty URL; otherwise parts 3, 4, 5 of the split on '/' and '?' become cid, idx and the raw name, `pathList` is the address of idx with bucket 1000, and cid exists iff the URL has at least three separators |
| AssetUrl.WellFormedUrl | src/utils.ts:96-99 | `scheme//host/cid/idx/name` followed by a query or more path yields exactly that cid, idx and name |
| AssetUrl.ShortUrl | src/utils.ts:96-99 | a URL with too few parts resolves with undefined cid and idx instead of failing, given naming functions that return normally on undefined input |
| Replay.Extension | src/export.ts:19-23 | the extension is empty iff `apiVersion <= 2`, and '.dat' otherwise |
| Replay.ClientIds | src/export.ts:27-29 | client ids are exactly the listed directories whose names do not start with '.' |
| ReplayLaws.ClientIdsAppend | src/export.ts:27-29 | the ids keep listing order: those of a listing `a + b` are those of `a` followed by those of `b` |
| ReplayLaws.ClientIdsSingle | src/export.ts:28-29 | one entry contributes its name exactly when it is a folder whose name does not start with '.' |
| Replay.Absorb | src/export.ts:50 | the entry of the change's `_id` becomes `applyChange` of the stored entry (or of nothing) and the change; every other entry is unchanged |
| Replay.AbsorbAll | src/export.ts:49-51 | a frame's changes fold in order; it fails iff some change has a reserved name; only the named ids change |
| ReplayLaws.AbsorbAllPerId | src/export.ts:49-51 | after a frame, each id's entry is its stored entry with that id's changes applied in frame order |
| Replay.FirstMissing | src/export.ts:36-45 | the count of frames read is the first missing index |
| Replay.Step | src/export.ts:48-51 | a frame that does not decode fails with the decoder's error; otherwise the step succeeds iff no change has a reserved name, and then the store gains exactly the frame's ids |
| Replay.StepperGrows | src/export.ts:48-51 | the exporter's step never drops a stored object |
| Replay.ReplayFrom | src/export.ts:34-52 | the client loop from any index keeps every stored object when the step does |
| Replay.ReplayClients | src/export.ts:34-53 | the loop over clients keeps every stored object when the step does |
| Replay.ReplayClient | src/export.ts:34-52 | the loop reads frames 0, 1, 2, … until the first missing one, returning the folded store and that count, or the first error |
| Replay.ReplayAll | src/export.ts:33-53 | every client is replayed in listing order into one store, with each client's count of frames read |
| Replay.TypeName | src/export.ts:61-62 | the `_type` used for export, present iff it is a non-empty string |
| Replay.Exportable | src/export.ts:62 | an object is exported iff its id is non-empty and its `_type` is a truthy string |
| Replay.AssetRefs | src/export.ts:69-71 | fails iff some truthy reference is not a string; otherwise one non-empty string per truthy reference, each the value of a listed key |
| Replay.AssetRefsInOrder | src/export.ts:69-71 | the reference at key `i` is entry number (truthy keys before `i`) of the result, so the references come in key order |
| Replay.Plan | src/export.ts:59-71 | exactly the objects with a non-empty id and a truthy `_type` are exported, with their state unchanged |
| Replay.Resolve | src/export.ts:69-73 | every truthy string reference resolves to an asset |
| ReplayLaws.CutAtGap | src/export.ts:36-44 | cutting the frames at any missing index leaves the replay from every earlier index unchanged |
| ReplayLaws.GapEndsClient | src/export.ts:36-44 | frames after the first missing index never influence the replay |
| ReplayLaws.MonotonicWrites | src/utils.ts:69-86 | scalar writes to one property in non-decreasing time order are all accepted, so the last value and time stand |
| ReplayLaws.TypeSetOnce | src/utils.ts:28-36 | an object's `_type` is the one of the first change naming it; later changes never alter it |
| ReplayLaws.ExportDecidedByFirstChange | src/export.ts:59-62 | after one batch of changes absorbed into an empty store, an object is exported iff its id is non-empty and its first change carried a non-empty `_type` |
| ReplayLaws.AbsorbAllAppend | src/export.ts:49-51 | absorbing two batches one after the other is absorbing their concatenation |
| ReplayLaws.StepperAbsorbs | src/export.ts:48-51 | a successful exporter step absorbs exactly the changes its frame decodes to |
| ReplayLaws.ReplayIsAbsorb | src/export.ts:34-52 | a successful client replay equals absorbing all its frames' changes, frames in index order up to the first missing one |
| ReplayLaws.ReplayClientsIsAbsorb | src/export.ts:33-53 | a successful replay of all clients equals absorbing every client's changes, clients in listing order |
| ReplayLaws.ExportDecidedByReplay | src/export.ts:33-62 | after the whole replay, an object is exported iff its id is non-empty and the first change naming it, over all clients and frames in replay order, carried a non-empty `_type` |

## Left out

- Filesystem and process I/O is not modelled: `readJson`, `readBin`, `readdir`, `writeJson`, `ensureFolder`, `copyFile` and `process.exit`. Frames arrive as a per-client sequence and the directory listing as a sequence of entries.
- Building the transaction and asset paths from `distributedFilePath` and the extension (src/export.ts:39, 77) is left out, because only the filesystem consumes those paths.
- The asset copy and its `try`/`catch` (src/export.ts:72-84) are left out: a failed copy is logged and does not abort. Only the choice of assets to copy is modelled.
- Logging and the printed counts are left out. The counts themselves are returned by `Replay.ReplayAll`.
- The CLI wiring, `cac`, the logger and `setupWebCrypto` (src/index.ts) are left out, since they are setup and UI.
- `JSON.parse`, `digest`+`toBase64Url`, `toHumanReadableFilePath` and `distributedFilePath` are uninterpreted functions. No collision-freeness or bucket bound is assumed for the addressing function.
- JSON numbers are integers. Floating-point times and values, NaN, and JavaScript's `+` conversion are not modelled.
- JSON arrays are not modelled as values, because the behaviour of zeed's `isRecord` on them is not part of this model.
- A change's `_id` is a string, `_type` an optional string and `_v` an integer. A change with a missing or non-numeric `_v`, or with a non-string `_id` or `_type`, is not representable.
- Merge.InnerTime: a non-numeric `_v` inside a nested object falls back to the parent's time. The source would spread that non-number in as the time.
- Json.Greater: comparisons between payloads of different JSON types are taken as false. Only a payload compared with itself reaches this comparison.
- Merge.ApplyChange: the `Failure` result carries no state. The source has already mutated the properties iterated before the bad one. This is unobservable because the exception aborts the run, and atomicity is not claimed.
- Duplicate property names within one JSON object cannot come from `Object.entries`. The model applies them in sequence.
- The `changes ?? []` fallback (src/export.ts:48) is dead code, because decode returns an object or throws.
- Replay.ReplayFrom and Replay.ReplayClients state in their contracts only that the store grows, and only for a step that never drops an object (`Replay.StepperGrows` shows the exporter's step is one). What they compute is given by their definitions and by `Replay.ReplayClient`, `Replay.ReplayAll` and the `ReplayLaws` lemmas.
- Keys are modelled as own properties only. In the source, `history` and `obj` are plain objects, so a name inherited from `Object.prototype` (`toString`, `constructor`, `hasOwnProperty`, `__proto__`) reads as a function there. `history["toString"]` is then neither null nor a number, so the source silently skips a leaf write to such a name, and a write to `__proto__` reaches `Object.prototype`. The model accepts these writes like any other name.
- `toHumanReadableFilePath` and `distributedFilePath` (the fields of `AssetUrl.Naming`) are total functions here. The model assumes `toHumanReadableFilePath(undefined)` and `distributedFilePath(NaN, 1000)` return normally for a short URL. A throw from either would come from src/export.ts:71, outside the `try`, and would abort the run.

=== FILE: asset.dfy ===
/** `parseAssetUrl` (src/utils.ts:94-107): an asset reference such as
    `https://host/<cid>/<idx>/<name>?query` resolved to its content id,
    shard index, display name and shard path. */
module AssetUrl {
  import opened Wrappers
  import opened Seqs

  /** A resolved reference. `cid` and `idx` are `None` where the source's
      `parts[3]` and `parts[4]` are `undefined`. */
  datatype Asset = Asset(cid: Option<string>, idx: Option<string>, name: string, pathList: seq<string>)

  /** The collaborators, left uninterpreted: `toHumanReadableFilePath` of the
      raw name, and `distributedFilePath(+idx, bucket)`. */
  datatype Naming = Naming(
    readable: Option<string> -> string,
    address: (Option<string>, int) -> seq<string>)

  /** `url.split(/[?/]/g)` cuts at every '/' and every '?'. */
  const Separators: set<char> := {'/', '?'}

  /** Assets are sharded a thousand to a directory. */
  const Bucket: int := 1000

  /** `parts[i]`: `undefined` past the end. */
  function Part(parts: seq<string>, i: nat): (r: Option<string>)
    ensures r.Some? <==> i < |parts|
    ensures r.Some? ==> r.value == parts[i]
  {
    if i < |parts| then Some(parts[i]) else None
  }

  /** `parseAssetUrl(url)`. */
  function ParseAssetUrl(naming: Naming, url: string): (r: Option<Asset>)
    ensures r.None? <==> url == ""
    ensures r.Some? ==>
      var parts := Split(url, Separators);
      && r.value.cid == Part(parts, 3)
      && r.value.idx == Part(parts, 4)
      && r.value.name == naming.readable(Part(parts, 5))
      && r.value.pathList == naming.address(r.value.idx, Bucket)
      && (r.value.cid.Some? <==> CountIn(url, Separators) >= 3)
      && (r.value.cid.Some? ==> Free(r.value.cid.value, Separators))
      && (r.value.idx.Some? ==> Free(r.value.idx.value, Separators))
  {
    if url == "" then None
    else
      var parts := Split(url, Separators);
      var idx := Part(parts, 4);
      Some(Asset(Part(parts, 3), idx, naming.readable(Part(parts, 5)), naming.address(idx, Bucket)))
  }

  /** The reference `scheme//host/cid/idx/name` followed by `rest`. */
  function Url(scheme: string, host: string, cid: string, idx: string, name: string, rest: string): string {
    scheme + ['/'] + (['/'] + (host + ['/'] + (cid + ['/'] + (idx + ['/'] + (name + rest)))))
  }

  /** `name` then `rest` splits into `name` and whatever `rest` holds after
      its leading separator. */
  lemma NameThenRest(name: string, rest: string)
    requires Free(name, Separators)
    requires rest == [] || rest[0] in Separators
    ensures Split(name + rest, Separators)
      == [name] + (if rest == [] then [] else Split(rest[1..], Separators))
  {
    if rest == [] {
      SplitFree(name, Separators);
      assert name + rest == name;
    } else {
      assert name + rest == name + [rest[0]] + rest[1..];
      SplitAfter(name, rest[0], rest[1..], Separators);
    }
  }

  /** A reference `scheme//host/cid/idx/name` followed by nothing, a query
      or further path yields exactly its cid, idx and name: the query never
      leaks into a component. */
  lemma WellFormedUrl(naming: Naming, scheme: string, host: string, cid: string, idx: string, name: string, rest: string)
    requires Free(scheme, Separators) && Free(host, Separators)
    requires Free(cid, Separators) && Free(idx, Separators) && Free(name, Separators)
    requires rest == [] || rest[0] in Separators
    ensures ParseAssetUrl(naming, Url(scheme, host, cid, idx, name, rest))
      == Some(Asset(Some(cid), Some(idx), naming.readable(Some(name)), naming.address(Some(idx), Bucket)))
  {
    UrlParts(scheme, host, cid, idx, name, rest);
  }

  /** The parts of `scheme//host/cid/idx/name` followed by `rest`. */
  lemma {:induction false} UrlParts(scheme: string, host: string, cid: string, idx: string, name: string, rest: string)
    requires Free(scheme, Separators) && Free(host, Separators)
    requires Free(cid, Separators) && Free(idx, Separators) && Free(name, Separators)
    requires rest == [] || rest[0] in Separators
    ensures Url(scheme, host, cid, idx, name, rest) != ""
    ensures Split(Url(scheme, host, cid, idx, name, rest), Separators)
      == [scheme, "", host, cid, idx, name] + (if rest == [] then [] else Split(rest[1..], Separators))
  {
    var tail := if rest == [] then [] else Split(rest[1..], Separators);
    var s5 := name + rest;
    NameThenRest(name, rest);
    var p5 := [name] + tail;
    var s4 := idx + ['/'] + s5;
    SplitAfter(idx, '/', s5, Separators);
    var p4 := [idx] + p5;
    var s3 := cid + ['/'] + s4;
    SplitAfter(cid, '/', s4, Separators);
    var p3 := [cid] + p4;
    var s2 := host + ['/'] + s3;
    SplitAfter(host, '/', s3, Separators);
    var p2 := [host] + p3;
    var s1 := [] + ['/'] + s2;
    SplitAfter([], '/', s2, Separators);
    var p1 := [""] + p2;
    var url := scheme + ['/'] + s1;
    SplitAfter(scheme, '/', s1, Separators);
    assert Split(url, Separators) == [scheme] + p1;
    Flatten(scheme, "", host, cid, idx, name, tail);
    assert url == Url(scheme, host, cid, idx, name, rest);
  }

  /** Six parts put in front of `t` one at a time. */
  lemma Flatten<T>(a: T, b: T, c: T, d: T, e: T, f: T, t: seq<T>)
    ensures [a] + ([b] + ([c] + ([d] + ([e] + ([f] + t))))) == [a, b, c, d, e, f] + t
  {
  }

  /** A reference with fewer than four parts has no content id, and one
      with fewer than five has no shard index: no failure, just undefined. */
  lemma ShortUrl(naming: Naming, url: string)
    requires url != "" && CountIn(url, Separators) < 3
    ensures ParseAssetUrl(naming, url).Some?
    ensures ParseAssetUrl(naming, url).value.cid.None?
    ensures ParseAssetUrl(naming, url).value.idx.None?
  {
  }
}

=== FILE: frame.dfy ===
/** The transaction frame decoder `transactionJsonlDecode`
    (src/utils.ts:5-22). A frame is a JSON header line, a line feed, and the
    content: change records as JSON, one per line. */
module Frame {
  import opened Wrappers
  import opened Errors
  import opened Seqs
  import opened Merge

  type Bytes = seq<bv8>

  /** The line feed byte that ends the header and separates change lines. */
  const LF: bv8 := 10

  /** The parsed header: content size `s`, content checksum `c`, time `t`. */
  datatype Header = Header(s: int, c: string, t: int)

  /** The decoder's result: the frame's change records and its time. */
  datatype Transaction = Transaction(changes: seq<Change>, ts: int)

  /** The collaborators the decoder calls, left uninterpreted: `JSON.parse`
      of the header line, `toBase64Url(digest(bytes))`, and `JSON.parse` of
      one change line. `line` reads its bytes as UTF-8 text keeping any
      byte-order mark, which `JSON.parse` then rejects; the one mark the
      decoder drops is removed before the content is split (`Lines`). A
      parse yields `None` where `JSON.parse` throws. */
  datatype Codec = Codec(
    header: Bytes -> Option<Header>,
    checksum: Bytes -> string,
    line: Bytes -> Option<Change>)

  /** The frame a writer produces: header bytes, a line feed, the content. */
  function Encode(header: Bytes, content: Bytes): Bytes {
    header + [LF] + content
  }

  /** `data.indexOf(10)`: where the header ends, or -1 without a line feed. */
  function HeaderEnd(data: Bytes): int {
    IndexOf(data, LF)
  }

  /** `data.slice(0, headerEnd)`: a negative end counts from the back, so a
      frame without a line feed loses its last byte here. */
  function HeaderBytes(data: Bytes): (h: Bytes)
    ensures LF !in h
  {
    var e := HeaderEnd(data);
    if e >= 0 then data[..e]
    else if |data| == 0 then []
    else
      assert data[..|data| - 1] <= data;
      data[..|data| - 1]
  }

  /** `data.slice(headerEnd + 1)`: everything after the first line feed, or
      the whole frame when there is none. */
  function ContentBytes(data: Bytes): (c: Bytes)
    ensures |c| <= |data|
    ensures c == data[|data| - |c|..]
  {
    data[HeaderEnd(data) + 1..]
  }

  /** The UTF-8 byte-order mark EF BB BF. */
  const Bom: Bytes := [0xEF, 0xBB, 0xBF]

  predicate StartsWithBom(b: Bytes) {
    |b| >= 3 && b[..3] == Bom
  }

  /** `new TextDecoder()` drops a byte-order mark at the very start of the
      bytes it decodes, and only there. */
  function DropBom(b: Bytes): (r: Bytes)
    ensures StartsWithBom(b) ==> b == Bom + r
    ensures !StartsWithBom(b) ==> r == b
  {
    if StartsWithBom(b) then b[3..] else b
  }

  /** `new TextDecoder().decode(contentBytes).split('\n')`: the content is
      decoded once, so only its first line can lose a byte-order mark. Byte
      10 occurs in UTF-8 text only as the line feed character, so splitting
      the bytes splits the decoded text. */
  function Lines(content: Bytes): seq<Bytes> {
    Split(DropBom(content), {LF})
  }

  /** A mark is dropped from the first line only: a line feed ends the first
      line before any mark that follows it. */
  lemma DropBomAfter(first: Bytes, rest: Bytes)
    requires Free(first, {LF})
    ensures DropBom(first + [LF] + rest) == DropBom(first) + [LF] + rest
  {
    var s := first + [LF] + rest;
    if |first| >= 3 {
      assert s[..3] == first[..3];
      if StartsWithBom(first) {
        assert s[3..] == first[3..] + [LF] + rest;
      }
    } else {
      assert s[|first|] == LF;
    }
  }

  /** The lines of joined separator-free lines: the lines themselves, the
      first one without its byte-order mark. */
  lemma {:induction false} LinesJoin(lines: seq<Bytes>)
    requires |lines| >= 1
    requires forall i :: 0 <= i < |lines| ==> Free(lines[i], {LF})
    ensures Lines(Join(lines, LF)) == [DropBom(lines[0])] + lines[1..]
  {
    var first := DropBom(lines[0]);
    var parts := [first] + lines[1..];
    assert Free(first, {LF}) by {
      if StartsWithBom(lines[0]) {
        forall i | 0 <= i < |first| ensures first[i] !in {LF} {
          assert first[i] == lines[0][i + 3];
        }
      }
    }
    forall i | 0 <= i < |parts| ensures Free(parts[i], {LF}) {
      if i > 0 { assert parts[i] == lines[i]; }
    }
    if |lines| == 1 {
      assert Join(lines, LF) == lines[0];
      assert Join(parts, LF) == first;
    } else {
      DropBomAfter(lines[0], Join(lines[1..], LF));
      assert parts[1..] == lines[1..];
      assert DropBom(Join(lines, LF)) == Join(parts, LF);
    }
    SplitJoin(parts, LF, {LF});
  }

  /** Only the content's first line can lose a byte-order mark: a mark at
      the start of any later line stays, and `JSON.parse` then fails on it. */
  lemma LaterLinesKeepBom(first: Bytes, rest: Bytes)
    requires Free(first, {LF})
    ensures Lines(first + [LF] + rest) == [DropBom(first)] + Split(rest, {LF})
  {
    DropBomAfter(first, rest);
    var f := DropBom(first);
    assert Free(f, {LF}) by {
      if StartsWithBom(first) {
        forall i | 0 <= i < |f| ensures f[i] !in {LF} {
          assert f[i] == first[i + 3];
        }
      }
    }
    SplitAfter(f, LF, rest, {LF});
  }

  /** The mark holds no line feed, so dropping it keeps the line count. */
  lemma CountDropBom(content: Bytes)
    ensures CountIn(DropBom(content), {LF}) == CountIn(content, {LF})
  {
    if StartsWithBom(content) {
      var r := DropBom(content);
      var c1, c2 := [0xBB, 0xBF] + r, [0xBF] + r;
      assert content[0] == 0xEF && content[1..] == c1;
      assert c1[0] == 0xBB && c1[1..] == c2;
      assert c2[0] == 0xBF && c2[1..] == r;
      assert CountIn(c2, {LF}) == CountIn(r, {LF});
      assert CountIn(c1, {LF}) == CountIn(c2, {LF});
    }
  }

  /** `lines.map(line => JSON.parse(line))`: all lines or an error. */
  function ParseLines(codec: Codec, lines: seq<Bytes>): (r: Result<seq<Change>, Error>)
    ensures r.Success? <==> forall i :: 0 <= i < |lines| ==> codec.line(lines[i]).Some?
    ensures r.Failure? ==> r.error == MalformedJson
    ensures r.Success? ==>
      && |r.value| == |lines|
      && forall i :: 0 <= i < |lines| ==> codec.line(lines[i]) == Some(r.value[i])
  {
    if lines == [] then Success([])
    else
      match codec.line(lines[0])
      case None => Failure(MalformedJson)
      case Some(c) =>
        var rest :- ParseLines(codec, lines[1..]);
        Success([c] + rest)
  }

  /** `transactionJsonlDecode(data)`. */
  function Decode(codec: Codec, data: Bytes): (r: Result<Transaction, Error>)
    ensures codec.header(HeaderBytes(data)).None? ==> r == Failure(MalformedJson)
    ensures codec.header(HeaderBytes(data)).Some? ==>
      var h := codec.header(HeaderBytes(data)).value;
      var content := ContentBytes(data);
      && (|content| != h.s ==> r == Failure(SizeMismatch))
      && (|content| == h.s && codec.checksum(content) != h.c ==> r == Failure(ChecksumMismatch))
      && (|content| == h.s && codec.checksum(content) == h.c && h.s == 0 ==> r == Success(Transaction([], h.t)))
      && (r.Success? ==> r.value.ts == h.t)
      && (h.s > 0 ==>
            (r.Success? <==> |content| == h.s && codec.checksum(content) == h.c
                             && ParseLines(codec, Lines(content)).Success?))
      && (h.s > 0 && r.Success? ==> r.value.changes == ParseLines(codec, Lines(content)).value)
  {
    match codec.header(HeaderBytes(data))
    case None => Failure(MalformedJson)
    case Some(h) =>
    var content := ContentBytes(data);
    if |content| != h.s then Failure(SizeMismatch)
    else if codec.checksum(content) != h.c then Failure(ChecksumMismatch)
    else if h.s > 0 then
      var changes :- ParseLines(codec, Lines(content));
      Success(Transaction(changes, h.t))
    else Success(Transaction([], h.t))
  }

  /** A non-empty frame that decodes holds one change per content line:
      one more than the content has line feeds, each the parse of its line,
      in line order. A line that does not parse fails the whole frame. */
  lemma DecodeLines(codec: Codec, data: Bytes)
    requires codec.header(HeaderBytes(data)).Some?
    requires codec.header(HeaderBytes(data)).value.s > 0
    ensures var content := ContentBytes(data);
      Decode(codec, data).Success? ==>
        && |Decode(codec, data).value.changes| == CountIn(content, {LF}) + 1
        && forall i :: 0 <= i < |Lines(content)| ==> codec.line(Lines(content)[i]) == Some(Decode(codec, data).value.changes[i])
    ensures var content := ContentBytes(data);
      var h := codec.header(HeaderBytes(data)).value;
      |content| == h.s && codec.checksum(content) == h.c
      && (exists i :: 0 <= i < |Lines(content)| && codec.line(Lines(content)[i]).None?)
      ==> Decode(codec, data) == Failure(MalformedJson)
  {
    var content := ContentBytes(data);
    var parsed := ParseLines(codec, Lines(content));
    CountDropBom(content);
    if Decode(codec, data).Success? {
      assert Decode(codec, data).value.changes == parsed.value;
    }
  }

  /** The header is the bytes before the first line feed and the content
      is every byte after it, line feeds included. */
  lemma FrameSlicing(header: Bytes, content: Bytes)
    requires LF !in header
    ensures HeaderBytes(Encode(header, content)) == header
    ensures ContentBytes(Encode(header, content)) == content
  {
    var data := Encode(header, content);
    assert data[|header|] == LF;
    assert data[..|header|] == header;
    assert data[|header| + 1..] == content;
  }

  /** Without any line feed the whole frame counts as content. */
  lemma NoLineFeed(data: Bytes)
    requires LF !in data && data != []
    ensures ContentBytes(data) == data
    ensures HeaderBytes(data) == data[..|data| - 1]
  {
  }

  /** Round trip: a frame whose header declares the content's size and
      checksum decodes to exactly the changes written on its lines, in
      line order; the first line is parsed without a leading byte-order
      mark. */
  lemma DecodeEncode(codec: Codec, header: Bytes, lines: seq<Bytes>, changes: seq<Change>, t: int)
    requires LF !in header
    requires |lines| == |changes| >= 1
    requires forall i :: 0 <= i < |lines| ==> Free(lines[i], {LF})
    requires forall i :: 0 <= i < |lines| ==> codec.line(if i == 0 then DropBom(lines[0]) else lines[i]) == Some(changes[i])
    requires var content := Join(lines, LF);
      |content| > 0 && codec.header(header) == Some(Header(|content|, codec.checksum(content), t))
    ensures Decode(codec, Encode(header, Join(lines, LF))) == Success(Transaction(changes, t))
  {
    var content := Join(lines, LF);
    FrameSlicing(header, content);
    LinesJoin(lines);
    var parts := [DropBom(lines[0])] + lines[1..];
    assert forall i :: 0 <= i < |parts| ==> codec.line(parts[i]) == Some(changes[i]);
    var r := ParseLines(codec, parts);
    assert r.Success?;
    assert r.value == changes;
  }

  /** An empty frame decodes to no changes, stamped with the header time. */
  lemma EmptyFrame(codec: Codec, header: Bytes, t: int)
    requires LF !in header
    requires codec.header(header) == Some(Header(0, codec.checksum([]), t))
    ensures Decode(codec, Encode(header, [])) == Success(Transaction([], t))
  {
    FrameSlicing(header, []);
  }

  /** Integrity: content of the declared length whose checksum is not the
      declared one is refused, before any line is parsed. */
  lemma TamperedContent(codec: Codec, header: Bytes, content: Bytes, original: Bytes, t: int)
    requires LF !in header && |content| == |original|
    requires codec.header(header) == Some(Header(|original|, codec.checksum(original), t))
    requires codec.checksum(content) != codec.checksum(original)
    ensures Decode(codec, Encode(header, content)) == Failure(ChecksumMismatch)
  {
    FrameSlicing(header, content);
  }

  /** Truncation or padding is refused as a size mismatch, whatever the
      checksum would have said. */
  lemma WrongLength(codec: Codec, header: Bytes, content: Bytes, h: Header)
    requires LF !in header && codec.header(header) == Some(h) && |content| != h.s
    ensures Decode(codec, Encode(header, content)) == Failure(SizeMismatch)
  {
    FrameSlicing(header, content);
  }
}

=== FILE: json.dfy ===
/** The JSON-like values that flow through a replay: leaf scalars, the
    materialized state stored in a managed object, and the change payloads
    parsed from transaction lines. */
module Json {

  /** A non-null JSON leaf. Numbers are integers in this model. */
  datatype Scalar = Str(s: string) | Num(n: int) | Bool(b: bool)

  /** A value held in a materialized object: a leaf or a nested record.
      `null` is never stored: a null write deletes the key instead. */
  datatype Value = Prim(p: Scalar) | Rec(fields: map<string, Value>)

  /** A changed property as it appears in a change line. `entries` lists a
      nested object's properties in `Object.entries` order. */
  datatype Patch = Tomb | Leaf(v: Scalar) | Nest(entries: seq<(string, Patch)>)

  /** JavaScript truthiness of a stored value. */
  predicate Truthy(v: Value) {
    match v
    case Rec(_) => true
    case Prim(Str(s)) => s != ""
    case Prim(Num(n)) => n != 0
    case Prim(Bool(b)) => b
  }

  /** JavaScript's `a < b` on two strings: lexicographic order on characters.
      Characters here are Unicode scalar values, so this is code-point order;
      it agrees with JavaScript's UTF-16 code-unit order except when
      characters outside the Basic Multilingual Plane meet characters in
      U+E000..U+FFFF. */
  predicate StrLess(a: string, b: string) {
    if a == [] then b != []
    else if b == [] then false
    else a[0] < b[0] || (a[0] == b[0] && StrLess(a[1..], b[1..]))
  }

  /** JavaScript's `a > b` on two leaf payloads of the same JSON type (null
      compares as 0 with itself). Operands of different JSON types are
      never compared by the merge engine, which only compares a payload
      with itself, so those cases are `false` here. */
  predicate Greater(a: Patch, b: Patch)
    ensures Greater(a, b) ==> a.Leaf? && b.Leaf? && a.v.Num? == b.v.Num? && a.v.Str? == b.v.Str?
  {
    match (a, b)
    case (Leaf(Num(x)), Leaf(Num(y))) => x > y
    case (Leaf(Str(x)), Leaf(Str(y))) => StrLess(y, x)
    case (Leaf(Bool(x)), Leaf(Bool(y))) => x && !y
    case _ => false
  }

  lemma {:induction false} StrLessIrreflexive(a: string)
    ensures !StrLess(a, a)
    decreases |a|
  {
    if a != [] {
      StrLessIrreflexive(a[1..]);
    }
  }

  /** No payload is greater than itself. */
  lemma GreaterIrreflexive(a: Patch)
    ensures !Greater(a, a)
  {
    if a.Leaf? && a.v.Str? {
      StrLessIrreflexive(a.v.s);
    }
  }
}

=== FILE: merge.dfy ===
/** The hierarchical last-writer-wins merge of `applyChange`
    (src/utils.ts). A managed object pairs the materialized object with the
    history of write times; every change record is folded into it one
    property at a time. */
module Merge {
  import opened Wrappers
  import opened Errors
  import opened Json

  /** The history of a managed object. `times[k]` is the source's
      `history[k]`, the time of the last accepted write to `k`; `subs[k]` is
      the source's `history[k + '$']`, the history of the nested record at
      `k`. Field names ending with '$' are refused, so the two never clash. */
  datatype History = History(times: map<string, int>, subs: map<string, History>)

  const NoHistory: History := History(map[], map[])

  /** The source's `ManagedObject`: the materialized object and its history. */
  datatype Managed = Managed(obj: map<string, Value>, history: History)

  /** One change record: `_id`, `_type`, `_v` (its time) and the remaining
      properties of the parsed line, in `Object.entries` order. */
  datatype Change = Change(id: string, typ: Option<string>, time: int, body: seq<(string, Patch)>)

  /** Field names ending with '$' are reserved for nested histories. */
  predicate Reserved(k: string)
    ensures Reserved(k) <==> |k| >= 1 && k == k[..|k| - 1] + "$"
  {
    |k| > 0 && k[|k| - 1] == '$'
  }

  /** Properties that `applyChange` destructures away before iterating. */
  predicate IsMeta(k: string) {
    k == "_v" || k == "_id" || k == "_type"
  }

  predicate IsRecordAt(obj: map<string, Value>, k: string) {
    k in obj && obj[k].Rec?
  }

  /** A leaf write at `time` passes the time test when the key was never
      written or was last written no later than `time`. */
  predicate Accepted(h: History, k: string, time: int) {
    k !in h.times || h.times[k] <= time
  }

  /** The managed object a change starts from: the stored one, or a fresh
      one holding only `_id` and `_type` (an undefined `_type` is absent). */
  function Seed(c: Change): (m: Managed)
    ensures m.history == NoHistory
    ensures m.obj.Keys == {"_id"} + (if c.typ.Some? then {"_type"} else {})
    ensures m.obj["_id"] == Prim(Str(c.id))
    ensures c.typ.Some? ==> m.obj["_type"] == Prim(Str(c.typ.value))
  {
    var base := map["_id" := Prim(Str(c.id))];
    Managed(if c.typ.Some? then base["_type" := Prim(Str(c.typ.value))] else base, NoHistory)
  }

  /** The time of a nested call: `{_v: time, ...value}` lets a numeric `_v`
      inside the nested object override the parent's time. */
  function InnerTime(es: seq<(string, Patch)>, time: int): (t: int)
    ensures (forall i :: 0 <= i < |es| ==> es[i].0 != "_v") ==> t == time
  {
    if es == [] then time
    else
      var last := es[|es| - 1];
      if last.0 == "_v" then
        (if last.1.Leaf? && last.1.v.Num? then last.1.v.n else time)
      else InnerTime(es[..|es| - 1], time)
  }

  /** The last `_v` entry of a nested object decides its time: a number
      overrides the parent's time, anything else falls back to it. */
  lemma {:induction false} InnerTimeLastVersion(es: seq<(string, Patch)>, time: int, j: nat)
    requires j < |es| && es[j].0 == "_v"
    requires forall l :: j < l < |es| ==> es[l].0 != "_v"
    ensures InnerTime(es, time) == (if es[j].1.Leaf? && es[j].1.v.Num? then es[j].1.v.n else time)
    decreases |es|
  {
    if j < |es| - 1 {
      var init := es[..|es| - 1];
      assert init[j] == es[j];
      forall l | j < l < |init| ensures init[l].0 != "_v" {
        assert init[l] == es[l];
      }
      InnerTimeLastVersion(init, time, j);
    }
  }

  /** The changed properties named in `es[i..]`. */
  function Keys(es: seq<(string, Patch)>, i: nat): (ks: set<string>)
    requires i <= |es|
    ensures forall k :: k in ks ==> !IsMeta(k)
    ensures forall j :: i <= j < |es| && !IsMeta(es[j].0) ==> es[j].0 in ks
    ensures forall k :: k in ks ==> exists j :: i <= j < |es| && es[j].0 == k
    decreases |es| - i
  {
    if i == |es| then {}
    else if IsMeta(es[i].0) then Keys(es, i + 1)
    else {es[i].0} + Keys(es, i + 1)
  }

  /** No changed property of `es[i..]`, at any depth, ends with '$'. */
  predicate Compliant(es: seq<(string, Patch)>, i: nat)
    requires i <= |es|
    decreases Nest(es), |es| - i
  {
    i == |es|
    || ((IsMeta(es[i].0) || (!Reserved(es[i].0) && PatchCompliant(es[i].1))) && Compliant(es, i + 1))
  }

  predicate PatchCompliant(p: Patch)
    decreases p, if p.Nest? then |p.entries| + 1 else 0
  {
    p.Nest? ==> Compliant(p.entries, 0)
  }

  /** The leaf branch of the loop (src/utils.ts:69-87). On an equal time the
      source skips the write when `changedProperties[key] > value`, but both
      operands are the same payload, so that test never holds. */
  function LeafWrite(m: Managed, time: int, k: string, p: Patch): (r: Managed)
    requires !p.Nest?
    ensures Accepted(m.history, k, time) ==>
      && r.history == History(m.history.times[k := time], m.history.subs)
      && (p.Tomb? ==> r.obj == m.obj - {k})
      && (p.Leaf? ==> r.obj == m.obj[k := Prim(p.v)])
    ensures !Accepted(m.history, k, time) ==> r == m
  {
    var newer := Accepted(m.history, k, time);
    var skip := k in m.history.times && m.history.times[k] == time && Greater(p, p);
    GreaterIrreflexive(p);
    if newer && !skip then
      var obj := if p.Tomb? then m.obj - {k} else m.obj[k := Prim(p.v)];
      Managed(obj, History(m.history.times[k := time], m.history.subs))
    else m
  }

  /** One iteration of the loop of `applyChange` on property `k`. */
  function ApplyField(m: Managed, time: int, k: string, p: Patch): (r: Result<Managed, Error>)
    ensures r.Success? <==> !Reserved(k) && PatchCompliant(p)
    ensures r.Failure? ==> r.error == NotCompliant
    ensures r.Success? ==>
      && r.value.obj - {k} == m.obj - {k}
      && r.value.history.times - {k} == m.history.times - {k}
      && r.value.history.subs - {k} == m.history.subs - {k}
    ensures r.Success? && p.Nest? ==>
      && IsRecordAt(r.value.obj, k)
      && k in r.value.history.subs
      && r.value.history.times == (if IsRecordAt(m.obj, k) then m.history.times else m.history.times[k := time])
    decreases p, if p.Nest? then |p.entries| + 1 else 0
  {
    if Reserved(k) then Failure(NotCompliant)
    else match p
      case Nest(es) =>
        var wasRecord := IsRecordAt(m.obj, k);
        var times := if wasRecord then m.history.times else m.history.times[k := time];
        var sub := if wasRecord then m.obj[k].fields else map[];
        var subHistory := if k in m.history.subs then m.history.subs[k] else NoHistory;
        var inner :- ApplyFields(Managed(sub, subHistory), InnerTime(es, time), es, 0);
        Success(Managed(m.obj[k := Rec(inner.obj)], History(times, m.history.subs[k := inner.history])))
      case _ => Success(LeafWrite(m, time, k, p))
  }

  /** The loop of `applyChange` over the properties `es[i..]`, skipping
      `_v`, `_id` and `_type`. */
  function ApplyFields(m: Managed, time: int, es: seq<(string, Patch)>, i: nat): (r: Result<Managed, Error>)
    requires i <= |es|
    ensures r.Success? <==> Compliant(es, i)
    ensures r.Failure? ==> r.error == NotCompliant
    ensures r.Success? ==>
      && r.value.obj - Keys(es, i) == m.obj - Keys(es, i)
      && r.value.history.times - Keys(es, i) == m.history.times - Keys(es, i)
      && r.value.history.subs - Keys(es, i) == m.history.subs - Keys(es, i)
    decreases Nest(es), |es| - i
  {
    if i == |es| then Success(m)
    else if IsMeta(es[i].0) then ApplyFields(m, time, es, i + 1)
    else
      var m1 :- ApplyField(m, time, es[i].0, es[i].1);
      var r := ApplyFields(m1, time, es, i + 1);
      if r.Success? then
        assert Keys(es, i) == {es[i].0} + Keys(es, i + 1);
        AgreeCompose(m.obj, m1.obj, r.value.obj, es[i].0, Keys(es, i + 1));
        AgreeCompose(m.history.times, m1.history.times, r.value.history.times, es[i].0, Keys(es, i + 1));
        AgreeCompose(m.history.subs, m1.history.subs, r.value.history.subs, es[i].0, Keys(es, i + 1));
        r
      else r
  }

  /** Two maps that agree outside `ks` agree on every key outside `ks`. */
  lemma AgreeOutside<V>(a: map<string, V>, b: map<string, V>, ks: set<string>, x: string)
    requires a - ks == b - ks && x !in ks
    ensures x in a <==> x in b
    ensures x in a ==> a[x] == b[x]
  {
    assert x in a <==> x in a - ks;
    assert x in b <==> x in b - ks;
    if x in a {
      assert a[x] == (a - ks)[x];
      assert b[x] == (b - ks)[x];
    }
  }

  /** Agreement outside `{k}` then outside `ks` is agreement outside both. */
  lemma AgreeCompose<V>(a: map<string, V>, b: map<string, V>, c: map<string, V>, k: string, ks: set<string>)
    requires b - {k} == a - {k} && c - ks == b - ks
    ensures c - ({k} + ks) == a - ({k} + ks)
  {
    forall x | x !in {k} + ks
      ensures (x in c <==> x in a) && (x in c ==> c[x] == a[x])
    {
      AgreeOutside(b, a, {k}, x);
      AgreeOutside(c, b, ks, x);
    }
  }

  /** The managed object a change starts from. */
  function Start(mo: Option<Managed>, c: Change): Managed {
    if mo.None? then Seed(c) else mo.value
  }

  /** `applyChange(managedObject, change)`: seed the managed object when
      there is none, then fold every changed property into it. */
  function ApplyChange(mo: Option<Managed>, c: Change): (r: Result<Managed, Error>)
    ensures r.Success? <==> Compliant(c.body, 0)
    ensures r.Failure? ==> r.error == NotCompliant
    ensures r.Success? && mo.None? ==>
      && "_id" in r.value.obj && r.value.obj["_id"] == Prim(Str(c.id))
      && ("_type" in r.value.obj <==> c.typ.Some?)
      && (c.typ.Some? ==> r.value.obj["_type"] == Prim(Str(c.typ.value)))
    ensures r.Success? && mo.Some? ==>
      && ("_id" in r.value.obj <==> "_id" in mo.value.obj)
      && ("_id" in r.value.obj ==> r.value.obj["_id"] == mo.value.obj["_id"])
      && ("_type" in r.value.obj <==> "_type" in mo.value.obj)
      && ("_type" in r.value.obj ==> r.value.obj["_type"] == mo.value.obj["_type"])
  {
    var m := Start(mo, c);
    var r := ApplyFields(m, c.time, c.body, 0);
    if r.Success? then
      AgreeOutside(r.value.obj, m.obj, Keys(c.body, 0), "_id");
      AgreeOutside(r.value.obj, m.obj, Keys(c.body, 0), "_type");
      r
    else r
  }
}

=== FILE: merge_laws.dfy ===
/** Properties of the merge engine stated over whole change records: what a
    caller of `applyChange` observes for one changed property. */
module MergeLaws {
  import opened Wrappers
  import opened Errors
  import opened Json
  import opened Merge

  /** A change record with a single changed property `k`. */
  predicate Single(c: Change, k: string, p: Patch) {
    c.body == [(k, p)] && !IsMeta(k)
  }

  /** A record with one property behaves as that property's loop iteration. */
  lemma SingleProperty(mo: Option<Managed>, c: Change, k: string, p: Patch)
    requires Single(c, k, p)
    ensures ApplyChange(mo, c) == ApplyField(Start(mo, c), c.time, k, p)
  {
    var m := Start(mo, c);
    var r := ApplyField(m, c.time, k, p);
    if r.Success? {
      assert ApplyFields(r.value, c.time, c.body, 1) == Success(r.value);
    }
  }

  /** Two managed objects hold the same value, time and nested history at
      `k`. */
  predicate SameAt(a: Managed, b: Managed, k: string) {
    && (k in a.obj <==> k in b.obj) && (k in a.obj ==> a.obj[k] == b.obj[k])
    && (k in a.history.times <==> k in b.history.times)
    && (k in a.history.times ==> a.history.times[k] == b.history.times[k])
    && (k in a.history.subs <==> k in b.history.subs)
    && (k in a.history.subs ==> a.history.subs[k] == b.history.subs[k])
  }

  /** The changed property names of `es[i..]` other than `_v`, `_id` and
      `_type` are pairwise distinct, as `Object.entries` yields them. */
  predicate DistinctNames(es: seq<(string, Patch)>) {
    forall a, b :: 0 <= a < b < |es| && !IsMeta(es[a].0) ==> es[a].0 != es[b].0
  }

  /** A loop iteration on `k` reads the managed object only at `k`. */
  lemma ApplyFieldLocal(m: Managed, n: Managed, time: int, k: string, p: Patch)
    requires SameAt(m, n, k)
    ensures ApplyField(m, time, k, p).Success? == ApplyField(n, time, k, p).Success?
    ensures ApplyField(m, time, k, p).Success? ==> SameAt(ApplyField(m, time, k, p).value, ApplyField(n, time, k, p).value, k)
  {
  }

  /** The iteration on `k` leaves every other key as it was. */
  lemma ApplyFieldElsewhere(m: Managed, time: int, k: string, p: Patch, x: string)
    requires ApplyField(m, time, k, p).Success? && x != k
    ensures SameAt(ApplyField(m, time, k, p).value, m, x)
  {
    var r := ApplyField(m, time, k, p).value;
    AgreeOutside(r.obj, m.obj, {k}, x);
    AgreeOutside(r.history.times, m.history.times, {k}, x);
    AgreeOutside(r.history.subs, m.history.subs, {k}, x);
  }

  /** In a loop over distinct names, the outcome at the name of entry `j`
      is that of its own iteration applied to the starting object. */
  lemma {:induction false} ApplyFieldsAt(m: Managed, time: int, es: seq<(string, Patch)>, i: nat, j: nat)
    requires i <= j < |es| && !IsMeta(es[j].0) && DistinctNames(es) && Compliant(es, i)
    ensures ApplyField(m, time, es[j].0, es[j].1).Success?
    ensures SameAt(ApplyFields(m, time, es, i).value, ApplyField(m, time, es[j].0, es[j].1).value, es[j].0)
    decreases |es| - i
  {
    var k := es[j].0;
    assert !Reserved(k) && PatchCompliant(es[j].1) by {
      CompliantAt(es, i, j);
    }
    if IsMeta(es[i].0) {
      ApplyFieldsAt(m, time, es, i + 1, j);
    } else {
      var m1 := ApplyField(m, time, es[i].0, es[i].1).value;
      var r := ApplyFields(m1, time, es, i + 1).value;
      if i == j {
        assert k !in Keys(es, i + 1);
        AgreeOutside(r.obj, m1.obj, Keys(es, i + 1), k);
        AgreeOutside(r.history.times, m1.history.times, Keys(es, i + 1), k);
        AgreeOutside(r.history.subs, m1.history.subs, Keys(es, i + 1), k);
      } else {
        assert es[i].0 != k;
        ApplyFieldElsewhere(m, time, es[i].0, es[i].1, k);
        ApplyFieldsAt(m1, time, es, i + 1, j);
        ApplyFieldLocal(m1, m, time, k, es[j].1);
      }
    }
  }

  /** A compliant loop has a compliant entry at every index. */
  lemma {:induction false} CompliantAt(es: seq<(string, Patch)>, i: nat, j: nat)
    requires i <= j < |es| && Compliant(es, i) && !IsMeta(es[j].0)
    ensures !Reserved(es[j].0) && PatchCompliant(es[j].1)
    decreases j - i
  {
    if i < j {
      CompliantAt(es, i + 1, j);
    }
  }

  /** A change with several properties acts on each of them as the
      one-property change would: the laws below lift to whole records. */
  lemma MultiProperty(mo: Option<Managed>, c: Change, j: nat)
    requires j < |c.body| && !IsMeta(c.body[j].0) && DistinctNames(c.body) && Compliant(c.body, 0)
    ensures ApplyChange(mo, c).Success?
    ensures ApplyField(Start(mo, c), c.time, c.body[j].0, c.body[j].1).Success?
    ensures SameAt(ApplyChange(mo, c).value, ApplyField(Start(mo, c), c.time, c.body[j].0, c.body[j].1).value, c.body[j].0)
  {
    ApplyFieldsAt(Start(mo, c), c.time, c.body, 0, j);
  }

  /** A property name ending with '$' makes the whole call fail, whatever
      the managed object holds. */
  lemma ReservedSuffixFails(mo: Option<Managed>, c: Change, i: nat)
    requires i < |c.body| && Reserved(c.body[i].0)
    ensures ApplyChange(mo, c) == Failure(NotCompliant)
  {
    ReservedBreaksCompliance(c.body, 0, i);
  }

  lemma {:induction false} ReservedBreaksCompliance(es: seq<(string, Patch)>, j: nat, i: nat)
    requires j <= i < |es| && Reserved(es[i].0)
    ensures !Compliant(es, j)
    decreases i - j
  {
    assert !IsMeta(es[i].0);
    if j < i {
      ReservedBreaksCompliance(es, j + 1, i);
    }
  }

  /** Leaf accept rule: a scalar write is taken exactly when the key has no
      recorded time or one no later than the change's time; it then records
      the change's time and stores the value. */
  lemma LeafAcceptRule(m: Managed, c: Change, k: string, v: Scalar)
    requires Single(c, k, Leaf(v)) && !Reserved(k)
    ensures ApplyChange(Some(m), c).Success?
    ensures var r := ApplyChange(Some(m), c).value;
      && (Accepted(m.history, k, c.time) <==> (k in r.history.times && r.history.times[k] == c.time && k in r.obj && r.obj[k] == Prim(v)))
      && (Accepted(m.history, k, c.time) ==> r.history.times[k] == c.time)
  {
    SingleProperty(Some(m), c, k, Leaf(v));
    var r := ApplyChange(Some(m), c).value;
    if !Accepted(m.history, k, c.time) {
      assert r == m;
      assert r.history.times[k] > c.time;
    }
  }

  /** The nested analogue of `LeafAcceptRule`: a scalar written to name `x`
      of the record at `k` runs the leaf rule against the nested history of
      `k`, at the change's time. */
  lemma NestedLeafRule(m: Managed, c: Change, k: string, x: string, v: Scalar)
    requires Single(c, k, Nest([(x, Leaf(v))])) && !Reserved(k) && !Reserved(x) && !IsMeta(x)
    requires IsRecordAt(m.obj, k) && k in m.history.subs
    ensures ApplyChange(Some(m), c).Success?
    ensures var r := ApplyChange(Some(m), c).value;
      && IsRecordAt(r.obj, k) && k in r.history.subs
      && (Accepted(m.history.subs[k], x, c.time) <==>
            (x in r.history.subs[k].times && r.history.subs[k].times[x] == c.time
             && x in r.obj[k].fields && r.obj[k].fields[x] == Prim(v)))
  {
    var es := [(x, Leaf(v))];
    assert InnerTime(es, c.time) == c.time;
    var sub := Managed(m.obj[k].fields, m.history.subs[k]);
    var inner := LeafWrite(sub, c.time, x, Leaf(v));
    assert ApplyFields(inner, c.time, es, 1) == Success(inner);
    assert ApplyFields(sub, c.time, es, 0) == Success(inner);
    SingleProperty(Some(m), c, k, Nest(es));
    var r := ApplyChange(Some(m), c).value;
    assert r.obj[k] == Rec(inner.obj) && r.history.subs[k] == inner.history;
    if !Accepted(sub.history, x, c.time) {
      assert inner == sub;
      assert inner.history.times[x] > c.time;
    }
  }

  /** A stale write (the key was last written later) changes nothing and is
      not an error. */
  lemma StaleWriteIgnored(m: Managed, c: Change, k: string, p: Patch)
    requires Single(c, k, p) && !p.Nest? && !Reserved(k)
    requires k in m.history.times && m.history.times[k] > c.time
    ensures ApplyChange(Some(m), c) == Success(m)
  {
    SingleProperty(Some(m), c, k, p);
  }

  /** Tombstone: an accepted null write leaves the key absent, not null,
      and stamps the key's time. */
  lemma TombstoneRemoves(m: Managed, c: Change, k: string)
    requires Single(c, k, Tomb) && !Reserved(k) && Accepted(m.history, k, c.time)
    ensures ApplyChange(Some(m), c).Success?
    ensures k !in ApplyChange(Some(m), c).value.obj
    ensures k in ApplyChange(Some(m), c).value.history.times
    ensures ApplyChange(Some(m), c).value.history.times[k] == c.time
  {
    SingleProperty(Some(m), c, k, Tomb);
  }

  /** Equal times: of two scalar writes to `k` at the same time, the one
      applied last wins, whatever the two values are. */
  lemma EqualTimeLastApplied(m: Managed, c1: Change, c2: Change, k: string, v1: Scalar, v2: Scalar)
    requires Single(c1, k, Leaf(v1)) && Single(c2, k, Leaf(v2)) && !Reserved(k)
    requires c1.time == c2.time && Accepted(m.history, k, c1.time)
    ensures ApplyChange(Some(m), c1).Success?
    ensures ApplyChange(Some(ApplyChange(Some(m), c1).value), c2).Success?
    ensures k in ApplyChange(Some(ApplyChange(Some(m), c1).value), c2).value.obj
    ensures ApplyChange(Some(ApplyChange(Some(m), c1).value), c2).value.obj[k] == Prim(v2)
  {
    SingleProperty(Some(m), c1, k, Leaf(v1));
    var m1 := ApplyChange(Some(m), c1).value;
    SingleProperty(Some(m1), c2, k, Leaf(v2));
  }

  /** A record write always leaves a record at `k`, at any time: when `k`
      held no record it stamps `k` with the change's time even if `k` was
      last written later. */
  lemma RecordWriteIgnoresTime(m: Managed, c: Change, k: string, es: seq<(string, Patch)>)
    requires Single(c, k, Nest(es)) && !Reserved(k) && Compliant(es, 0)
    requires !IsRecordAt(m.obj, k)
    ensures ApplyChange(Some(m), c).Success?
    ensures IsRecordAt(ApplyChange(Some(m), c).value.obj, k)
    ensures k in ApplyChange(Some(m), c).value.history.times
    ensures ApplyChange(Some(m), c).value.history.times[k] == c.time
  {
    SingleProperty(Some(m), c, k, Nest(es));
  }

  /** A record write into an existing record keeps the structural time of
      `k`, and the nested history is the existing one: it is created only
      when missing and never reset. */
  lemma RecordWriteKeepsHistory(m: Managed, c: Change, k: string, es: seq<(string, Patch)>)
    requires Single(c, k, Nest(es)) && !Reserved(k) && Compliant(es, 0)
    requires k in m.history.subs
    ensures ApplyChange(Some(m), c).Success?
    ensures var r := ApplyChange(Some(m), c).value;
      && (IsRecordAt(m.obj, k) ==> r.history.times == m.history.times)
      && k in r.history.subs
      && r.history.subs[k].times - Keys(es, 0) == m.history.subs[k].times - Keys(es, 0)
  {
    SingleProperty(Some(m), c, k, Nest(es));
  }

  /** Isolation: a nested write touches no other top-level key and no
      nested key it does not name. */
  lemma NestedIsolation(m: Managed, c: Change, k: string, es: seq<(string, Patch)>, j: string, x: string)
    requires Single(c, k, Nest(es)) && !Reserved(k) && Compliant(es, 0)
    requires IsRecordAt(m.obj, k) && x !in Keys(es, 0) && j != k
    ensures ApplyChange(Some(m), c).Success?
    ensures var r := ApplyChange(Some(m), c).value;
      && (j in r.obj <==> j in m.obj) && (j in m.obj ==> r.obj[j] == m.obj[j])
      && IsRecordAt(r.obj, k)
      && (x in r.obj[k].fields <==> x in m.obj[k].fields)
      && (x in m.obj[k].fields ==> r.obj[k].fields[x] == m.obj[k].fields[x])
  {
    SingleProperty(Some(m), c, k, Nest(es));
    var r := ApplyChange(Some(m), c).value;
    AgreeOutside(r.obj, m.obj, {k}, j);
    var sub := m.obj[k].fields;
    var subHistory := if k in m.history.subs then m.history.subs[k] else NoHistory;
    var inner := ApplyFields(Managed(sub, subHistory), InnerTime(es, c.time), es, 0);
    assert r.obj[k] == Rec(inner.value.obj);
    AgreeOutside(inner.value.obj, sub, Keys(es, 0), x);
  }

  /** The two-frame example: `{_id: "x", _type: "Doc", _v: 1, title:
      "Hello"}` then `{_id: "x", _v: 2, title: "World", body: null}`. */
  const DocFirstChange: Change := Change("x", Some("Doc"), 1, [("title", Leaf(Str("Hello")))])
  const DocSecondChange: Change := Change("x", None, 2, [("title", Leaf(Str("World"))), ("body", Tomb)])

  const DocAfterFirst: Managed :=
    Managed(map["_id" := Prim(Str("x")), "_type" := Prim(Str("Doc")), "title" := Prim(Str("Hello"))],
            History(map["title" := 1], map[]))

  /** `title` now reads "World", stamped 2; the null for the never-written
      `body` is accepted, so `body` stays absent but is stamped 2 too. */
  const DocAfterSecond: Managed :=
    Managed(map["_id" := Prim(Str("x")), "_type" := Prim(Str("Doc")), "title" := Prim(Str("World"))],
            History(map["title" := 2, "body" := 2], map[]))

  /** The example yields `{_id: "x", _type: "Doc", title: "World"}`. */
  lemma DocExample()
    ensures ApplyChange(None, DocFirstChange) == Success(DocAfterFirst)
    ensures ApplyChange(Some(DocAfterFirst), DocSecondChange) == Success(DocAfterSecond)
  {
    DocFirst();
    DocSecond();
  }

  lemma DocFirst()
    ensures ApplyChange(None, DocFirstChange) == Success(DocAfterFirst)
  {
    var c1 := DocFirstChange;
    assert !Reserved("title") && !IsMeta("title");
    var s := Seed(c1);
    var m1 := LeafWrite(s, 1, "title", Leaf(Str("Hello")));
    assert ApplyFields(m1, 1, c1.body, 1) == Success(m1);
    assert ApplyFields(s, 1, c1.body, 0) == Success(m1);
    assert m1.obj == DocAfterFirst.obj;
  }

  /** Between the two writes of the second change: `title` rewritten. */
  const DocTitled: Managed :=
    Managed(map["_id" := Prim(Str("x")), "_type" := Prim(Str("Doc")), "title" := Prim(Str("World"))],
            History(map["title" := 2], map[]))

  lemma DocSecondTitle()
    ensures LeafWrite(DocAfterFirst, 2, "title", Leaf(Str("World"))) == DocTitled
  {
    assert DocAfterFirst.obj["title" := Prim(Str("World"))] == DocTitled.obj;
    assert DocAfterFirst.history.times["title" := 2] == DocTitled.history.times;
  }

  lemma DocSecondBody()
    ensures LeafWrite(DocTitled, 2, "body", Tomb) == DocAfterSecond
  {
    assert DocTitled.obj - {"body"} == DocAfterSecond.obj;
    assert DocTitled.history.times["body" := 2] == DocAfterSecond.history.times;
  }

  lemma DocSecond()
    ensures ApplyChange(Some(DocAfterFirst), DocSecondChange) == Success(DocAfterSecond)
  {
    var c2 := DocSecondChange;
    assert !Reserved("title") && !Reserved("body") && !IsMeta("title") && !IsMeta("body");
    DocSecondTitle();
    DocSecondBody();
    assert ApplyFields(DocAfterSecond, 2, c2.body, 2) == Success(DocAfterSecond);
    assert ApplyFields(DocTitled, 2, c2.body, 1) == Success(DocAfterSecond);
    assert ApplyFields(DocAfterFirst, 2, c2.body, 0) == Success(DocAfterSecond);
  }

  /** Nested history is never reset: `{a: {x: "1"}}` at time 5, then
      `a = "s"` at 6, then `{a: {x: "9"}}` at 4. The record write ignores
      time, so `a` becomes a record again and `history.a` drops to 4; but
      the nested write to `x` still meets the time 5 recorded by the first
      change, so `a` is left an empty record. */
  const StaleFirst: Change := Change("o", None, 5, [("a", Nest([("x", Leaf(Str("1")))]))])
  const StaleSecond: Change := Change("o", None, 6, [("a", Leaf(Str("s")))])
  const StaleThird: Change := Change("o", None, 4, [("a", Nest([("x", Leaf(Str("9")))]))])

  /** The nested history of `a` after the first change. */
  const StaleInner: History := History(map["x" := 5], map[])

  const StaleAfterFirst: Managed :=
    Managed(map["_id" := Prim(Str("o")), "a" := Rec(map["x" := Prim(Str("1"))])],
            History(map["a" := 5], map["a" := StaleInner]))

  const StaleAfterSecond: Managed :=
    Managed(map["_id" := Prim(Str("o")), "a" := Prim(Str("s"))],
            History(map["a" := 6], map["a" := StaleInner]))

  const StaleAfterThird: Managed :=
    Managed(map["_id" := Prim(Str("o")), "a" := Rec(map[])],
            History(map["a" := 4], map["a" := StaleInner]))

  lemma StaleNestedHistory()
    ensures ApplyChange(None, StaleFirst) == Success(StaleAfterFirst)
    ensures ApplyChange(Some(StaleAfterFirst), StaleSecond) == Success(StaleAfterSecond)
    ensures ApplyChange(Some(StaleAfterSecond), StaleThird) == Success(StaleAfterThird)
  {
    StaleStepOne();
    StaleStepTwo();
    StaleStepThree();
  }

  lemma StaleStepOne()
    ensures ApplyChange(None, StaleFirst) == Success(StaleAfterFirst)
  {
    var c1 := StaleFirst;
    var inner1 := [("x", Leaf(Str("1")))];
    assert !Reserved("a") && !Reserved("x") && !IsMeta("a") && !IsMeta("x");
    assert InnerTime(inner1, 5) == 5;
    var n1 := LeafWrite(Managed(map[], NoHistory), 5, "x", Leaf(Str("1")));
    assert ApplyFields(n1, 5, inner1, 1) == Success(n1);
    assert ApplyFields(Managed(map[], NoHistory), 5, inner1, 0) == Success(n1);
    assert n1.history == StaleInner;
    SingleProperty(None, c1, "a", Nest(inner1));
    assert ApplyChange(None, c1).value.obj == StaleAfterFirst.obj;
  }

  lemma StaleStepTwo()
    ensures ApplyChange(Some(StaleAfterFirst), StaleSecond) == Success(StaleAfterSecond)
  {
    assert !Reserved("a") && !IsMeta("a");
    SingleProperty(Some(StaleAfterFirst), StaleSecond, "a", Leaf(Str("s")));
    assert ApplyChange(Some(StaleAfterFirst), StaleSecond).value.obj == StaleAfterSecond.obj;
    assert ApplyChange(Some(StaleAfterFirst), StaleSecond).value.history.times == StaleAfterSecond.history.times;
  }

  lemma StaleStepThree()
    ensures ApplyChange(Some(StaleAfterSecond), StaleThird) == Success(StaleAfterThird)
  {
    var inner3 := [("x", Leaf(Str("9")))];
    assert !Reserved("a") && !IsMeta("a");
    assert InnerTime(inner3, 4) == 4;
    StaleNestedSkip();
    var m := StaleAfterSecond;
    assert !IsRecordAt(m.obj, "a");
    SingleProperty(Some(m), StaleThird, "a", Nest(inner3));
    assert ApplyField(m, 4, "a", Nest(inner3))
      == Success(Managed(m.obj["a" := Rec(map[])], History(m.history.times["a" := 4], m.history.subs["a" := StaleInner])));
    assert m.obj["a" := Rec(map[])] == StaleAfterThird.obj;
    assert m.history.times["a" := 4] == StaleAfterThird.history.times;
    assert m.history.subs["a" := StaleInner] == StaleAfterThird.history.subs;
  }

  /** In the third change, `x` at time 4 loses against its time 5. */
  lemma StaleNestedSkip()
    ensures ApplyFields(Managed(map[], StaleInner), 4, [("x", Leaf(Str("9")))], 0) == Success(Managed(map[], StaleInner))
  {
    var inner3 := [("x", Leaf(Str("9")))];
    assert !Reserved("x") && !IsMeta("x");
    var n3 := LeafWrite(Managed(map[], StaleInner), 4, "x", Leaf(Str("9")));
    assert n3 == Managed(map[], StaleInner);
    assert ApplyFields(n3, 4, inner3, 1) == Success(n3);
  }

  /** A numeric `_v` inside a nested object overrides the parent's time for
      that object's properties (`{_v: time, ...value}` spreads it last). */
  lemma NestedVersionOverrides(m: Managed, c: Change, k: string, t: int, x: string, v: Scalar)
    requires Single(c, k, Nest([("_v", Leaf(Num(t))), (x, Leaf(v))]))
    requires !Reserved(k) && !Reserved(x) && !IsMeta(x) && !IsRecordAt(m.obj, k) && k !in m.history.subs
    ensures ApplyChange(Some(m), c).Success?
    ensures var r := ApplyChange(Some(m), c).value;
      && k in r.history.subs && r.history.subs[k].times == map[x := t]
      && IsRecordAt(r.obj, k) && r.obj[k].fields == map[x := Prim(v)]
  {
    var es := [("_v", Leaf(Num(t))), (x, Leaf(v))];
    assert InnerTime(es, c.time) == t;
    var n := LeafWrite(Managed(map[], NoHistory), t, x, Leaf(v));
    assert ApplyFields(n, t, es, 2) == Success(n);
    assert ApplyFields(Managed(map[], NoHistory), t, es, 1) == Success(n);
    assert ApplyFields(Managed(map[], NoHistory), t, es, 0) == Success(n);
    SingleProperty(Some(m), c, k, Nest(es));
  }
}

=== FILE: replay.dfy ===
/** The pure part of `commandExport` (src/export.ts): the file extension,
    the client list, the per-client frame loop folding every change into the
    store, and the choice of objects and assets to export. Reading and
    writing files is left to the caller: a client's frames arrive as a
    sequence whose entry `i` is the file at index `i`, `None` when it is
    missing. */
module Replay {
  import opened Wrappers
  import opened Errors
  import opened Json
  import opened Merge
  import opened Frame
  import opened AssetUrl

  /** The managed objects by `_id`: the source's `data`. */
  type Store = map<string, Managed>

  /** `FILE_NAME_EXTENSION` (src/_types.ts). */
  const DatExtension: string := ".dat"

  /** One entry of the transactions folder listing. */
  datatype DirEntry = DirEntry(name: string, isDirectory: bool)

  /** What is written for one exported object: its type folder, its JSON
      and the assets it references. */
  datatype Export = Export(typ: string, obj: map<string, Value>, assets: seq<Asset>)

  /** Since API version 3 the transaction and asset files end with '.dat'. */
  function Extension(apiVersion: int): (ext: string)
    ensures ext == "" <==> apiVersion <= 2
    ensures ext != "" ==> ext == DatExtension
  {
    if apiVersion > 2 then DatExtension else ""
  }

  predicate IsClientDir(e: DirEntry) {
    e.isDirectory && !(|e.name| > 0 && e.name[0] == '.')
  }

  /** The client ids: folders whose names do not start with '.', in
      listing order. */
  function ClientIds(entries: seq<DirEntry>): (ids: seq<string>)
    ensures |ids| <= |entries|
    ensures forall e :: e in entries && IsClientDir(e) ==> e.name in ids
    ensures forall x :: x in ids ==> exists e :: e in entries && IsClientDir(e) && e.name == x
  {
    if entries == [] then []
    else
      var rest := ClientIds(entries[1..]);
      assert forall e :: e in entries[1..] ==> e in entries;
      if IsClientDir(entries[0]) then [entries[0].name] + rest else rest
  }

  /** The ids of a batch of changes. */
  function Ids(cs: seq<Change>): set<string> {
    set i | 0 <= i < |cs| :: cs[i].id
  }

  /** The ids of a non-empty batch: its first id and those of the rest. */
  lemma IdsCons(cs: seq<Change>)
    requires cs != []
    ensures Ids(cs) == {cs[0].id} + Ids(cs[1..])
  {
    forall x | x in Ids(cs) ensures x in {cs[0].id} + Ids(cs[1..]) {
      var i :| 0 <= i < |cs| && cs[i].id == x;
      if i > 0 { assert cs[1..][i - 1].id == x; }
    }
    forall x | x in Ids(cs[1..]) ensures x in Ids(cs) {
      var i :| 0 <= i < |cs[1..]| && cs[1..][i].id == x;
      assert cs[i + 1].id == x;
    }
  }

  /** `data[id]`: the stored managed object, if any. */
  function Lookup(store: Store, id: string): Option<Managed> {
    if id in store then Some(store[id]) else None
  }

  /** `data[change._id] = applyChange(data[change._id], change)`. */
  function Absorb(store: Store, c: Change): (r: Result<Store, Error>)
    ensures r.Success? <==> Compliant(c.body, 0)
    ensures r.Failure? ==> r.error == NotCompliant
    ensures r.Success? ==> r.value.Keys == store.Keys + {c.id} && r.value - {c.id} == store - {c.id}
    ensures r.Success? ==> r.value[c.id] == ApplyChange(Lookup(store, c.id), c).value
  {
    var mo :- ApplyChange(Lookup(store, c.id), c);
    Success(store[c.id := mo])
  }

  /** Every change of a frame absorbed in order. */
  function AbsorbAll(store: Store, cs: seq<Change>): (r: Result<Store, Error>)
    ensures r.Success? <==> forall i :: 0 <= i < |cs| ==> Compliant(cs[i].body, 0)
    ensures r.Failure? ==> r.error == NotCompliant
    ensures r.Success? ==> r.value.Keys == store.Keys + Ids(cs) && r.value - Ids(cs) == store - Ids(cs)
    decreases |cs|
  {
    if cs == [] then Success(store)
    else
      var s1 :- Absorb(store, cs[0]);
      var r := AbsorbAll(s1, cs[1..]);
      if r.Success? then
        IdsCons(cs);
        AgreeCompose(store, s1, r.value, cs[0].id, Ids(cs[1..]));
        r
      else r
  }

  /** The index of the first missing frame: the number of frames a client
      replay reads. */
  function FirstMissing(frames: seq<Option<Bytes>>): (n: nat)
    ensures n <= |frames|
    ensures forall j :: 0 <= j < n ==> frames[j].Some?
    ensures n < |frames| ==> frames[n].None?
  {
    if frames == [] || frames[0].None? then 0 else 1 + FirstMissing(frames[1..])
  }

  /** One iteration of the client loop: decode one frame and absorb its
      changes in order. */
  function Step(codec: Codec, store: Store, frame: Bytes): (r: Result<Store, Error>)
    ensures Decode(codec, frame).Failure? ==> r == Failure(Decode(codec, frame).error)
    ensures r.Success? <==>
      && Decode(codec, frame).Success?
      && forall j :: 0 <= j < |Decode(codec, frame).value.changes| ==> Compliant(Decode(codec, frame).value.changes[j].body, 0)
    ensures r.Success? ==> r.value.Keys == store.Keys + Ids(Decode(codec, frame).value.changes)
  {
    var t :- Decode(codec, frame);
    AbsorbAll(store, t.changes)
  }

  /** One loop iteration as a value: decode a frame and absorb it. The
      loops below are stated for any such step; `Stepper(codec)` is the one
      of the exporter. */
  type StepFn = (Store, Bytes) -> Result<Store, Error>

  function Stepper(codec: Codec): StepFn {
    (s: Store, f: Bytes) => Step(codec, s, f)
  }

  /** A step that never drops a managed object. */
  ghost predicate Grows(step: StepFn) {
    forall s: Store, f: Bytes :: step(s, f).Success? ==> s.Keys <= step(s, f).value.Keys
  }

  /** The exporter's step keeps every managed object. */
  lemma StepperGrows(codec: Codec)
    ensures Grows(Stepper(codec))
  {
    forall s: Store, f: Bytes | Stepper(codec)(s, f).Success?
      ensures s.Keys <= Stepper(codec)(s, f).value.Keys
    {
      assert Stepper(codec)(s, f) == Step(codec, s, f);
    }
  }

  /** The client loop from index `i` on: decode the frame, absorb its
      changes, go to the next index; stop at the first missing frame. */
  function ReplayFrom(step: StepFn, store: Store, frames: seq<Option<Bytes>>, i: nat): (r: Result<Store, Error>)
    requires i <= |frames|
    ensures Grows(step) && r.Success? ==> store.Keys <= r.value.Keys
    decreases |frames| - i
  {
    if i == |frames| || frames[i].None? then Success(store)
    else
      var s :- step(store, frames[i].value);
      ReplayFrom(step, s, frames, i + 1)
  }

  /** A present frame at `i` is not the first missing one. */
  lemma PastPresentFrame(frames: seq<Option<Bytes>>, i: nat)
    requires i <= FirstMissing(frames) && i < |frames| && frames[i].Some?
    ensures i + 1 <= FirstMissing(frames)
  {
  }

  /** The loop stops at a missing frame, and that frame is the first one. */
  lemma StopAtMissing(step: StepFn, store: Store, frames: seq<Option<Bytes>>, i: nat)
    requires i <= FirstMissing(frames) && (i == |frames| || frames[i].None?)
    ensures FirstMissing(frames) == i
    ensures ReplayFrom(step, store, frames, i) == Success(store)
  {
  }

  /** The replay from a present frame `i` steps over it. */
  lemma ReplayPresent(step: StepFn, store: Store, frames: seq<Option<Bytes>>, i: nat)
    requires i < |frames| && frames[i].Some?
    ensures var s := step(store, frames[i].value);
      ReplayFrom(step, store, frames, i) == (if s.Success? then ReplayFrom(step, s.value, frames, i + 1) else Failure(s.error))
  {
  }

  /** One client's replay (src/export.ts:35-52) with the step `step`
      (`Stepper(codec)` in the exporter), returning the store and the number
      of frames read. */
  method ReplayClient(step: StepFn, store: Store, frames: seq<Option<Bytes>>) returns (r: Result<(Store, nat), Error>)
    ensures r.Success? <==> ReplayFrom(step, store, frames, 0).Success?
    ensures r.Success? ==> r.value.0 == ReplayFrom(step, store, frames, 0).value
    ensures r.Success? ==> r.value.1 == FirstMissing(frames)
    ensures r.Failure? ==> r.error == ReplayFrom(step, store, frames, 0).error
  {
    var current := store;
    var i := 0;
    while i < |frames| && frames[i].Some?
      invariant i <= FirstMissing(frames)
      invariant ReplayFrom(step, current, frames, i) == ReplayFrom(step, store, frames, 0)
      decreases |frames| - i
    {
      PastPresentFrame(frames, i);
      ReplayPresent(step, current, frames, i);
      var s := step(current, frames[i].value);
      if s.Failure? {
        return Failure(s.error);
      }
      current := s.value;
      i := i + 1;
    }
    StopAtMissing(step, current, frames, i);
    r := Success((current, i));
  }

  /** A client's frames: none when it has no log. */
  function Log(logs: map<string, seq<Option<Bytes>>>, id: string): seq<Option<Bytes>> {
    if id in logs then logs[id] else []
  }

  /** All clients `ids[i..]` replayed in order into one store. */
  function ReplayClients(step: StepFn, store: Store, ids: seq<string>, logs: map<string, seq<Option<Bytes>>>, i: nat): (r: Result<Store, Error>)
    requires i <= |ids|
    ensures Grows(step) && r.Success? ==> store.Keys <= r.value.Keys
    decreases |ids| - i
  {
    if i == |ids| then Success(store)
    else
      var s :- ReplayFrom(step, store, Log(logs, ids[i]), 0);
      ReplayClients(step, s, ids, logs, i + 1)
  }

  /** Replaying the clients from `i` replays client `i` first. */
  lemma ReplayNextClient(step: StepFn, store: Store, ids: seq<string>, logs: map<string, seq<Option<Bytes>>>, i: nat)
    requires i < |ids|
    ensures var s := ReplayFrom(step, store, Log(logs, ids[i]), 0);
      ReplayClients(step, store, ids, logs, i) == (if s.Success? then ReplayClients(step, s.value, ids, logs, i + 1) else Failure(s.error))
  {
  }

  /** Every listed client replayed (src/export.ts:33-53), with the number of
      frames read from each. */
  method ReplayAll(step: StepFn, ids: seq<string>, logs: map<string, seq<Option<Bytes>>>) returns (r: Result<(Store, seq<nat>), Error>)
    ensures r.Success? <==> ReplayClients(step, map[], ids, logs, 0).Success?
    ensures r.Success? ==> r.value.0 == ReplayClients(step, map[], ids, logs, 0).value
    ensures r.Success? ==> |r.value.1| == |ids|
    ensures r.Success? ==> forall j :: 0 <= j < |ids| ==> r.value.1[j] == FirstMissing(Log(logs, ids[j]))
  {
    var store: Store := map[];
    var counts: seq<nat> := [];
    var i := 0;
    while i < |ids|
      invariant i <= |ids| && |counts| == i
      invariant forall j :: 0 <= j < i ==> counts[j] == FirstMissing(Log(logs, ids[j]))
      invariant ReplayClients(step, store, ids, logs, i) == ReplayClients(step, map[], ids, logs, 0)
    {
      var c := ReplayClient(step, store, Log(logs, ids[i]));
      ReplayNextClient(step, store, ids, logs, i);
      if c.Failure? {
        return Failure(c.error);
      }
      store := c.value.0;
      counts := counts + [c.value.1];
      i := i + 1;
    }
    r := Success((store, counts));
  }

  /** The object's `_type` when it is a non-empty string. */
  function TypeName(m: Managed): (t: Option<string>)
    ensures t.Some? <==> "_type" in m.obj && m.obj["_type"].Prim? && m.obj["_type"].p.Str? && Truthy(m.obj["_type"])
    ensures t.Some? ==> m.obj["_type"] == Prim(Str(t.value))
  {
    if "_type" in m.obj && m.obj["_type"].Prim? && m.obj["_type"].p.Str? && m.obj["_type"].p.s != "" then
      Some(m.obj["_type"].p.s)
    else None
  }

  /** `type && id`: an object is exported when its `_type` is a truthy
      string and its id is not empty. */
  predicate Exportable(id: string, m: Managed)
    ensures Exportable(id, m) <==> |id| > 0 && "_type" in m.obj && Truthy(m.obj["_type"]) && m.obj["_type"].Prim? && m.obj["_type"].p.Str?
  {
    id != "" && TypeName(m).Some?
  }

  /** The asset reference properties, in the order they are visited. */
  const AssetKeys: seq<string> := ["asset", "assetOriginal", "assetExtraction"]

  /** How many of `keys` hold a truthy value in `obj`. */
  function TruthyCount(obj: map<string, Value>, keys: seq<string>): nat {
    if keys == [] then 0
    else (if keys[0] in obj && Truthy(obj[keys[0]]) then 1 else 0) + TruthyCount(obj, keys[1..])
  }

  /** The truthy asset references of an object, in key order. A truthy
      reference that is not a string makes `parseAssetUrl` throw, outside
      the `try`. */
  function AssetRefs(obj: map<string, Value>, keys: seq<string>): (r: Result<seq<string>, Error>)
    ensures r.Success? <==> forall i :: 0 <= i < |keys| && keys[i] in obj && Truthy(obj[keys[i]]) ==> obj[keys[i]].Prim? && obj[keys[i]].p.Str?
    ensures r.Failure? ==> r.error == NotAString
    ensures r.Success? ==> |r.value| == TruthyCount(obj, keys)
    ensures r.Success? ==> forall s :: s in r.value ==> s != "" && exists k :: k in keys && k in obj && obj[k] == Prim(Str(s))
  {
    if keys == [] then Success([])
    else
      var rest :- AssetRefs(obj, keys[1..]);
      var k := keys[0];
      if k !in obj || !Truthy(obj[k]) then Success(rest)
      else if obj[k].Prim? && obj[k].p.Str? then Success([obj[k].p.s] + rest)
      else Failure(NotAString)
  }

  /** Completeness and order: the truthy reference at `keys[i]` is the
      entry after those of the truthy keys before it. */
  lemma {:induction false} AssetRefsInOrder(obj: map<string, Value>, keys: seq<string>, i: nat)
    requires AssetRefs(obj, keys).Success? && i < |keys| && keys[i] in obj && Truthy(obj[keys[i]])
    ensures TruthyCount(obj, keys[..i]) < |AssetRefs(obj, keys).value|
    ensures obj[keys[i]] == Prim(Str(AssetRefs(obj, keys).value[TruthyCount(obj, keys[..i])]))
    decreases i
  {
    var rest := AssetRefs(obj, keys[1..]);
    if i > 0 {
      assert keys[..i][1..] == keys[1..][..i - 1];
      assert keys[1..][i - 1] == keys[i];
      AssetRefsInOrder(obj, keys[1..], i - 1);
    }
  }

  /** What the export writes: every exportable object with its resolved
      assets; it fails when some exportable object holds a truthy asset
      reference that is not a string. */
  function Plan(naming: Naming, store: Store): (r: Result<map<string, Export>, Error>)
    ensures r.Success? ==> forall id :: id in r.value <==> id in store && Exportable(id, store[id])
    ensures r.Success? ==> forall id :: id in r.value ==> r.value[id].obj == store[id].obj && Some(r.value[id].typ) == TypeName(store[id])
    ensures r.Failure? <==> exists id :: id in store && Exportable(id, store[id]) && AssetRefs(store[id].obj, AssetKeys).Failure?
  {
    if exists id :: id in store && Exportable(id, store[id]) && AssetRefs(store[id].obj, AssetKeys).Failure? then
      Failure(NotAString)
    else
      Success(map id | id in store && Exportable(id, store[id]) ::
        Export(TypeName(store[id]).value, store[id].obj, Resolve(naming, AssetRefs(store[id].obj, AssetKeys).value)))
  }

  /** Every truthy asset reference resolves: none of them is empty. */
  function Resolve(naming: Naming, urls: seq<string>): (assets: seq<Asset>)
    requires forall s :: s in urls ==> s != ""
    ensures |assets| == |urls|
    ensures forall i :: 0 <= i < |urls| ==> ParseAssetUrl(naming, urls[i]) == Some(assets[i])
  {
    if urls == [] then []
    else
      assert urls[0] in urls;
      assert forall s :: s in urls[1..] ==> s in urls;
      [ParseAssetUrl(naming, urls[0]).value] + Resolve(naming, urls[1..])
  }
}

=== FILE: replay_laws.dfy ===
/** Properties of the replay driver that relate several frames or several
    change records. */
module ReplayLaws {
  import opened Wrappers
  import opened Errors
  import opened Json
  import opened Merge
  import opened MergeLaws
  import opened Frame
  import opened AssetUrl
  import opened Replay

  /** Cutting the frames at a missing index (or at the end) does not change
      the replay from any index up to the cut, whatever the step does. */
  lemma {:induction false} CutAtGap(step: StepFn, store: Store, frames: seq<Option<Bytes>>, n: nat, i: nat)
    requires i <= n <= |frames| && (n == |frames| || frames[n].None?)
    ensures ReplayFrom(step, store, frames, i) == ReplayFrom(step, store, frames[..n], i)
    decreases n - i
  {
    if i < n && frames[i].Some? {
      assert frames[..n][i] == frames[i];
      var s := step(store, frames[i].value);
      if s.Success? {
        CutAtGap(step, s.value, frames, n, i + 1);
      }
    } else {
      assert i < n ==> frames[..n][i] == frames[i];
    }
  }

  /** Frames past the first missing index are never read: the replay of a
      client equals the replay of its frames up to the gap. */
  lemma GapEndsClient(step: StepFn, store: Store, frames: seq<Option<Bytes>>, i: nat)
    requires i <= FirstMissing(frames)
    ensures ReplayFrom(step, store, frames, i) == ReplayFrom(step, store, frames[..FirstMissing(frames)], i)
  {
    CutAtGap(step, store, frames, FirstMissing(frames), i);
  }

  /** Listing order is kept: the client ids of two listings read one after
      the other are those of the first, then those of the second. */
  lemma {:induction false} ClientIdsAppend(a: seq<DirEntry>, b: seq<DirEntry>)
    ensures ClientIds(a + b) == ClientIds(a) + ClientIds(b)
    decreases |a|
  {
    if a != [] {
      assert (a + b)[0] == a[0];
      assert (a + b)[1..] == a[1..] + b;
      ClientIdsAppend(a[1..], b);
    } else {
      assert a + b == b;
    }
  }

  /** One entry contributes its name exactly when it is a client folder. */
  lemma ClientIdsSingle(e: DirEntry)
    ensures ClientIds([e]) == if IsClientDir(e) then [e.name] else []
  {
    assert [e][1..] == [];
  }

  /** The changes of `cs` on object `id`, applied in order to `mo` with
      `applyChange`; the other changes are passed over. */
  function FoldFor(mo: Option<Managed>, cs: seq<Change>, id: string): Result<Option<Managed>, Error>
    decreases |cs|
  {
    if cs == [] then Success(mo)
    else if cs[0].id != id then FoldFor(mo, cs[1..], id)
    else
      var m :- ApplyChange(mo, cs[0]);
      FoldFor(Some(m), cs[1..], id)
  }

  /** What a batch leaves under each id: the stored object (or nothing)
      with that id's changes applied in batch order. Changes on other ids
      do not touch it. */
  lemma {:induction false} AbsorbAllPerId(store: Store, cs: seq<Change>, id: string)
    requires AbsorbAll(store, cs).Success?
    ensures FoldFor(Lookup(store, id), cs, id) == Success(Lookup(AbsorbAll(store, cs).value, id))
    decreases |cs|
  {
    if cs != [] {
      var c := cs[0];
      var s1 := Absorb(store, c).value;
      assert AbsorbAll(s1, cs[1..]) == AbsorbAll(store, cs);
      AbsorbAllPerId(s1, cs[1..], id);
      if c.id == id {
        assert Lookup(s1, id) == Some(ApplyChange(Lookup(store, id), c).value);
      } else {
        AgreeOutside(s1, store, {c.id}, id);
        assert Lookup(s1, id) == Lookup(store, id);
      }
    }
  }

  /** Absorbing `a + b` absorbs `a`, then `b`. */
  lemma {:induction false} AbsorbAllAppend(store: Store, a: seq<Change>, b: seq<Change>)
    ensures AbsorbAll(store, a + b)
      == (if AbsorbAll(store, a).Success? then AbsorbAll(AbsorbAll(store, a).value, b) else AbsorbAll(store, a))
    decreases |a|
  {
    if a == [] {
      assert a + b == b;
    } else {
      assert (a + b)[0] == a[0];
      assert (a + b)[1..] == a[1..] + b;
      var s1 := Absorb(store, a[0]);
      if s1.Success? {
        AbsorbAllAppend(s1.value, a[1..], b);
      }
    }
  }

  /** The changes a frame holds, or the error decoding it raises. */
  type BatchFn = Bytes -> Result<seq<Change>, Error>

  /** The exporter's reading of a frame: the changes `Decode` yields. */
  function Batches(codec: Codec): BatchFn {
    (f: Bytes) => if Decode(codec, f).Success? then Success(Decode(codec, f).value.changes) else Failure(Decode(codec, f).error)
  }

  /** Every successful step absorbs exactly the frame's batch. */
  ghost predicate Absorbs(step: StepFn, batch: BatchFn) {
    forall s: Store, f: Bytes :: step(s, f).Success? ==> batch(f).Success? && step(s, f) == AbsorbAll(s, batch(f).value)
  }

  /** The exporter's step absorbs the decoded frame. */
  lemma StepperAbsorbs(codec: Codec)
    ensures Absorbs(Stepper(codec), Batches(codec))
  {
    forall s: Store, f: Bytes | Stepper(codec)(s, f).Success?
      ensures Batches(codec)(f).Success? && Stepper(codec)(s, f) == AbsorbAll(s, Batches(codec)(f).value)
    {
      assert Stepper(codec)(s, f) == Step(codec, s, f);
    }
  }

  /** The batches of frames `i` up to the first missing one, joined end to
      end; a frame that cannot be read fails. */
  function FrameChanges(batch: BatchFn, frames: seq<Option<Bytes>>, i: nat): Result<seq<Change>, Error>
    requires i <= |frames|
    decreases |frames| - i
  {
    if i == |frames| || frames[i].None? then Success([])
    else
      var cs :- batch(frames[i].value);
      var rest :- FrameChanges(batch, frames, i + 1);
      Success(cs + rest)
  }

  /** The batches of every client's frames, clients in listing order. */
  function ClientChanges(batch: BatchFn, ids: seq<string>, logs: map<string, seq<Option<Bytes>>>, i: nat): Result<seq<Change>, Error>
    requires i <= |ids|
    decreases |ids| - i
  {
    if i == |ids| then Success([])
    else
      var a :- FrameChanges(batch, Log(logs, ids[i]), 0);
      var rest :- ClientChanges(batch, ids, logs, i + 1);
      Success(a + rest)
  }

  /** A successful client replay is one batch: all its frames' changes
      absorbed in frame order. */
  lemma {:induction false} ReplayIsAbsorb(step: StepFn, batch: BatchFn, store: Store, frames: seq<Option<Bytes>>, i: nat)
    requires i <= |frames| && Absorbs(step, batch)
    ensures ReplayFrom(step, store, frames, i).Success? ==>
      && FrameChanges(batch, frames, i).Success?
      && ReplayFrom(step, store, frames, i) == AbsorbAll(store, FrameChanges(batch, frames, i).value)
    decreases |frames| - i
  {
    if i < |frames| && frames[i].Some? {
      var f := frames[i].value;
      var st := step(store, f);
      if st.Success? {
        ReplayIsAbsorb(step, batch, st.value, frames, i + 1);
        if ReplayFrom(step, st.value, frames, i + 1).Success? {
          AbsorbAllAppend(store, batch(f).value, FrameChanges(batch, frames, i + 1).value);
        }
      }
    }
  }

  /** A successful replay of the clients is one batch: every client's
      changes absorbed, clients in listing order. */
  lemma {:induction false} ReplayClientsIsAbsorb(step: StepFn, batch: BatchFn, store: Store, ids: seq<string>, logs: map<string, seq<Option<Bytes>>>, i: nat)
    requires i <= |ids| && Absorbs(step, batch)
    ensures ReplayClients(step, store, ids, logs, i).Success? ==>
      && ClientChanges(batch, ids, logs, i).Success?
      && ReplayClients(step, store, ids, logs, i) == AbsorbAll(store, ClientChanges(batch, ids, logs, i).value)
    decreases |ids| - i
  {
    if i < |ids| {
      var frames := Log(logs, ids[i]);
      var sc := ReplayFrom(step, store, frames, 0);
      if sc.Success? {
        ReplayIsAbsorb(step, batch, store, frames, 0);
        ReplayClientsIsAbsorb(step, batch, sc.value, ids, logs, i + 1);
        if ReplayClients(step, sc.value, ids, logs, i + 1).Success? {
          AbsorbAllAppend(store, FrameChanges(batch, frames, 0).value, ClientChanges(batch, ids, logs, i + 1).value);
        }
      }
    }
  }

  /** The index of the first change of `cs` on object `id`. */
  function First(cs: seq<Change>, id: string): (n: nat)
    requires id in Ids(cs)
    ensures n < |cs| && cs[n].id == id
    ensures forall j :: 0 <= j < n ==> cs[j].id != id
  {
    if cs[0].id == id then 0
    else
      assert id in Ids(cs[1..]) by {
        var i :| 0 <= i < |cs| && cs[i].id == id;
        assert cs[1..][i - 1].id == id;
      }
      1 + First(cs[1..], id)
  }

  /** Monotonic acceptance: scalar writes to one property of one object in
      non-decreasing time order are all accepted, so the last one stands. */
  lemma {:induction false} MonotonicWrites(store: Store, cs: seq<Change>, vs: seq<Scalar>, id: string, k: string)
    requires |cs| == |vs| >= 1 && !Reserved(k) && !IsMeta(k)
    requires forall i :: 0 <= i < |cs| ==> cs[i].id == id && cs[i].body == [(k, Leaf(vs[i]))]
    requires forall i :: 0 < i < |cs| ==> cs[i - 1].time <= cs[i].time
    requires id in store ==> Accepted(store[id].history, k, cs[0].time)
    ensures AbsorbAll(store, cs).Success?
    ensures var r := AbsorbAll(store, cs).value;
      && id in r && k in r[id].obj && r[id].obj[k] == Prim(vs[|vs| - 1])
      && k in r[id].history.times && r[id].history.times[k] == cs[|cs| - 1].time
    decreases |cs|
  {
    AbsorbScalar(store, cs[0], k, vs[0]);
    var s1 := Absorb(store, cs[0]).value;
    if |cs| == 1 {
      assert AbsorbAll(s1, cs[1..]) == Success(s1);
    } else {
      var cs', vs' := cs[1..], vs[1..];
      assert forall i :: 0 <= i < |cs'| ==> cs'[i] == cs[i + 1] && vs'[i] == vs[i + 1];
      assert cs[0].id == id && cs[0].time <= cs'[0].time;
      assert Accepted(s1[id].history, k, cs'[0].time);
      assert vs'[|vs'| - 1] == vs[|vs| - 1] && cs'[|cs'| - 1] == cs[|cs| - 1];
      assert AbsorbAll(store, cs) == AbsorbAll(s1, cs');
      MonotonicWrites(s1, cs', vs', id, k);
    }
  }

  /** One accepted scalar write absorbed into the store. */
  lemma AbsorbScalar(store: Store, c: Change, k: string, v: Scalar)
    requires !Reserved(k) && !IsMeta(k) && c.body == [(k, Leaf(v))]
    requires c.id in store ==> Accepted(store[c.id].history, k, c.time)
    ensures Absorb(store, c).Success?
    ensures var s1 := Absorb(store, c).value;
      && c.id in s1 && k in s1[c.id].obj && s1[c.id].obj[k] == Prim(v)
      && k in s1[c.id].history.times && s1[c.id].history.times[k] == c.time
  {
    SingleProperty(Lookup(store, c.id), c, k, Leaf(v));
  }

  /** The type of an object is fixed by the first change that names it:
      later changes never alter `_type`. */
  lemma {:induction false} TypeSetOnce(store: Store, cs: seq<Change>, id: string)
    requires AbsorbAll(store, cs).Success?
    ensures id in store ==>
      id in AbsorbAll(store, cs).value && TypeName(AbsorbAll(store, cs).value[id]) == TypeName(store[id])
    ensures id !in store && id in Ids(cs) ==>
      id in AbsorbAll(store, cs).value && TypeName(AbsorbAll(store, cs).value[id]) == TypeName(Seed(cs[First(cs, id)]))
    decreases |cs|
  {
    if cs != [] {
      var c := cs[0];
      var s1 := Absorb(store, c).value;
      assert AbsorbAll(s1, cs[1..]) == AbsorbAll(store, cs);
      TypeSetOnce(s1, cs[1..], id);
      if id == c.id {
        OwnChangeKeepsType(store, c);
      } else {
        AgreeOutside(s1, store, {c.id}, id);
        if id !in store && id in Ids(cs) {
          FirstSkip(cs, id);
        }
      }
    }
  }

  /** Past a first change on another id, the first change on `id` is the
      first one in the rest. */
  lemma FirstSkip(cs: seq<Change>, id: string)
    requires cs != [] && cs[0].id != id && id in Ids(cs)
    ensures id in Ids(cs[1..]) && First(cs, id) == 1 + First(cs[1..], id)
  {
    var i :| 0 <= i < |cs| && cs[i].id == id;
    assert cs[1..][i - 1].id == id;
  }

  /** A change keeps the stored object's type, or sets the seeded one. */
  lemma OwnChangeKeepsType(store: Store, c: Change)
    requires Absorb(store, c).Success?
    ensures c.id in store ==> TypeName(Absorb(store, c).value[c.id]) == TypeName(store[c.id])
    ensures c.id !in store ==> TypeName(Absorb(store, c).value[c.id]) == TypeName(Seed(c))
  {
    var m := ApplyChange(Lookup(store, c.id), c).value;
    assert Absorb(store, c).value[c.id] == m;
  }

  /** Export filter over a batch replayed into an empty store: an object is
      exported exactly when its id is not empty and the first change naming
      it carried a non-empty `_type`. */
  lemma ExportDecidedByFirstChange(naming: Naming, cs: seq<Change>, id: string)
    requires AbsorbAll(map[], cs).Success?
    requires Plan(naming, AbsorbAll(map[], cs).value).Success?
    ensures id in Plan(naming, AbsorbAll(map[], cs).value).value
      <==> id != "" && id in Ids(cs) && cs[First(cs, id)].typ.Some? && cs[First(cs, id)].typ.value != ""
  {
    TypeSetOnce(map[], cs, id);
  }

  /** Export filter after the whole replay (what `ReplayAll` computes): an
      object is exported exactly when its id is not empty and the first
      change naming it, over all clients in listing order and their frames
      in index order, carried a non-empty `_type`. */
  lemma ExportDecidedByReplay(codec: Codec, naming: Naming, ids: seq<string>, logs: map<string, seq<Option<Bytes>>>, id: string)
    requires ReplayClients(Stepper(codec), map[], ids, logs, 0).Success?
    requires Plan(naming, ReplayClients(Stepper(codec), map[], ids, logs, 0).value).Success?
    ensures ClientChanges(Batches(codec), ids, logs, 0).Success?
    ensures var cs := ClientChanges(Batches(codec), ids, logs, 0).value;
      id in Plan(naming, ReplayClients(Stepper(codec), map[], ids, logs, 0).value).value
      <==> id != "" && id in Ids(cs) && cs[First(cs, id)].typ.Some? && cs[First(cs, id)].typ.value != ""
  {
    StepperAbsorbs(codec);
    ReplayClientsIsAbsorb(Stepper(codec), Batches(codec), map[], ids, logs, 0);
    ExportDecidedByFirstChange(naming, ClientChanges(Batches(codec), ids, logs, 0).value, id);
  }
}

=== FILE: seqs.dfy ===
/** Searching and splitting sequences on separator elements: the model of
    `Uint8Array.indexOf`, `String.prototype.split` on a single character and
    `String.prototype.split` on a character class. */
module Seqs {

  /** No element of `s` is a separator. */
  predicate Free<T(==)>(s: seq<T>, seps: set<T>) {
    forall i :: 0 <= i < |s| ==> s[i] !in seps
  }

  /** The number of separator elements in `s`. */
  function CountIn<T(==)>(s: seq<T>, seps: set<T>): nat {
    if s == [] then 0 else (if s[0] in seps then 1 else 0) + CountIn(s[1..], seps)
  }

  /** JavaScript's `indexOf`: the position of the first `x`, or -1. */
  function IndexOf<T(==)>(s: seq<T>, x: T): (r: int)
    ensures -1 <= r && (r == -1 <==> x !in s)
    ensures 0 <= r ==> r < |s| && s[r] == x && x !in s[..r]
  {
    if s == [] then -1
    else if s[0] == x then 0
    else
      var k := IndexOf(s[1..], x);
      if k == -1 then -1
      else
        assert s[..k + 1] == [s[0]] + s[1..][..k];
        k + 1
  }

  /** Cut `s` at every separator; separators are dropped and empty parts are
      kept, as JavaScript's `split` does. */
  function Split<T(==)>(s: seq<T>, seps: set<T>): (parts: seq<seq<T>>)
    ensures |parts| == CountIn(s, seps) + 1
    ensures forall i :: 0 <= i < |parts| ==> Free(parts[i], seps)
    decreases |s|
  {
    if s == [] then [[]]
    else if s[0] in seps then [[]] + Split(s[1..], seps)
    else
      var rest := Split(s[1..], seps);
      [[s[0]] + rest[0]] + rest[1..]
  }

  /** Glue the parts back together with one separator between neighbours. */
  function Join<T>(parts: seq<seq<T>>, sep: T): seq<T>
    requires |parts| >= 1
  {
    if |parts| == 1 then parts[0] else parts[0] + [sep] + Join(parts[1..], sep)
  }

  /** A separator-free sequence is a single part. */
  lemma {:induction false} SplitFree<T>(s: seq<T>, seps: set<T>)
    requires Free(s, seps)
    ensures Split(s, seps) == [s]
    decreases |s|
  {
    if s != [] {
      SplitFree(s[1..], seps);
      assert [s[0]] + s[1..] == s;
    }
  }

  /** A separator-free prefix followed by a separator is the first part. */
  lemma {:induction false} SplitAfter<T>(p: seq<T>, sep: T, rest: seq<T>, seps: set<T>)
    requires Free(p, seps) && sep in seps
    ensures Split(p + [sep] + rest, seps) == [p] + Split(rest, seps)
    decreases |p|
  {
    if p == [] {
      assert p + [sep] + rest == [sep] + rest;
      assert ([sep] + rest)[1..] == rest;
    } else {
      var s := p + [sep] + rest;
      assert s[1..] == p[1..] + [sep] + rest;
      SplitAfter(p[1..], sep, rest, seps);
      assert [p[0]] + p[1..] == p;
    }
  }

  /** Splitting undoes joining when no part holds a separator. */
  lemma {:induction false} SplitJoin<T>(parts: seq<seq<T>>, sep: T, seps: set<T>)
    requires |parts| >= 1 && sep in seps
    requires forall i :: 0 <= i < |parts| ==> Free(parts[i], seps)
    ensures Split(Join(parts, sep), seps) == parts
    decreases |parts|
  {
    if |parts| == 1 {
      SplitFree(parts[0], seps);
    } else {
      SplitJoin(parts[1..], sep, seps);
      SplitAfter(parts[0], sep, Join(parts[1..], sep), seps);
      assert [parts[0]] + parts[1..] == parts;
    }
  }

  /** Joining undoes splitting on a single separator. */
  lemma {:induction false} JoinSplit<T>(s: seq<T>, sep: T)
    ensures Join(Split(s, {sep}), sep) == s
    decreases |s|
  {
    if s != [] {
      JoinSplit(s[1..], sep);
      var rest := Split(s[1..], {sep});
      if s[0] != sep {
        var parts := [[s[0]] + rest[0]] + rest[1..];
        if |rest| == 1 {
          assert Join(parts, sep) == [s[0]] + rest[0];
        } else {
          assert parts[1..] == rest[1..];
          assert Join(rest, sep) == rest[0] + [sep] + Join(rest[1..], sep);
        }
        assert [s[0]] + s[1..] == s;
      } else {
        assert [s[0]] + s[1..] == s;
      }
    }
  }
}

=== FILE: wrappers.dfy ===
/** Failure-compatible wrappers used throughout the model, and the error
    conditions the repository raises. */
module Wrappers {

  /** An optional value: `None` stands for JavaScript's `undefined`. */
  datatype Option<+T> = None | Some(value: T) {

    predicate IsFailure() {
      None?
    }

    function PropagateFailure<U>(): Option<U>
      requires None?
    {
      None
    }

    function Extract(): T
      requires Some?
    {
      value
    }
  }

  /** A value or the error that a thrown exception would carry. */
  datatype Result<+R, +E> = Success(value: R) | Failure(error: E) {

    predicate IsFailure() {
      Failure?
    }

    function PropagateFailure<U>(): Result<U, E>
      requires Failure?
    {
      Failure(error)
    }

    function Extract(): R
      requires Success?
    {
      value
    }
  }
}

/** The exceptions that abort a replay. Each one ends the whole run. */
module Errors {

  datatype Error =
    | NotCompliant      // 'Attribute name is not compliant.': a field name ends with '$'
    | SizeMismatch      // 'Size mismatch': content length differs from the header's `s`
    | ChecksumMismatch  // 'Checksum mismatch': content digest differs from the header's `c`
    | MalformedJson     // JSON.parse threw on the header or on a change line
    | NotAString        // a truthy asset reference that is not a string has no `split`
}
